=== FILE: README.md ===
# learning_platform — a Dafny model of the request core

This project models the decision core of the learning-platform backend: a
Django REST service where teachers publish courses, materials and tests, and
students pay for courses, subscribe to them, read their materials and answer
their tests. The core is what each endpoint decides for one request, over an
abstract database.

- **Entities.** Users, courses, materials, tests, answer options, student
  answers, payments and subscriptions are immutable records. The database is
  a `Store`: one map from primary key to record per table. `Models.Valid`
  states what the database guarantees between requests:
  - every foreign key resolves;
  - there is at most one subscription per (user, course);
  - e-mails are unique.
- **Deletion.** Deletion cascades along the containment tree
  (course → material → test → answer option / student answer), from the
  owning or paying user, and from a course to its payments and
  subscriptions. Each `Delete…` operation is proved to
  remove exactly the dependent rows and to keep the database valid.
- **Permissions.** `IsStudent` and `IsTeacher` are the two role checks,
  including the teacher object check. Each view's permission-class list is a
  set of checks, and a request passes when every check in it passes.
- **Fields.** The serializers' character fields strip their input and refuse
  blank text, text over the column's length and NUL characters with a 400.
  Creating a course or material, updating a material and submitting an
  answer all store the cleaned text.
- **Visibility.**
  - The material list is the union of the materials of subscribed courses
    and the materials the user owns.
  - The test queryset depends on the requester's role and on the optional
    `material_id` filter.
  - The answer list is unfiltered.
  - The per-material answer check has its 400/404/403 cases.
- **Grading.** A submitted answer is compared, by exact text, with the
  lowest-id option flagged correct.
- **Payments.** Creating a payment, polling the payment provider, and
  activating a subscription (an upsert keyed on user and course). The
  provider is an oracle whose answers are parameters.
- **Notifications.** A material update produces the list of (e-mail, title)
  messages, one per active subscription of the material's course.
- **Link validator.** A model of the scan that `re.findall` performs for
  `https?://[^\s]+`. Text is rejected when some link lacks `youtube.com`.

An endpoint answers `Reply<T>`: either `Ok(value)` or
`Fail(kind, detail)`, where `kind` is `Denied`, `BadRequest`, `NotFound` or
`ServerError`. Endpoints that write also return the new store, as `Step`,
`Submitted` or `Updated`. Query-string ids are `IdParam`:
`Missing | Given(n) | Malformed`.

## Model

| member | source | states |
|---|---|---|
| Permissions.RoleChecksByGroup | learning_platform/permissions.py:4-19 | `IsStudent` holds exactly for a signed-in member of "Студенты" and `IsTeacher` exactly for a signed-in member of "Преподаватели". The anonymous user passes neither. A member of both groups passes both. |
| Permissions.RolesAreIndependent | learning_platform/permissions.py:5-19 | For every user id and group set: membership of the student group without the teacher group makes a student who is not a teacher, and symmetrically. Both single-group requesters exist for every id. |
| Permissions.TeacherObjectPermission | learning_platform/permissions.py:21-26 | Any member of the teachers' group passes, whoever owns the object. Anyone else passes iff they are signed in and own the object. |
| Permissions.ObjectCheckNeverNarrows | learning_platform/permissions.py:13-26 | A requester admitted by a view's request-level checks is never refused by the object-level checks. Ownership therefore restricts nobody. |
| Access.CourseAllowed | learning_platform/views.py:38-47 | `list` is open to all. `create`, `update`, `retrieve` and `destroy` are allowed iff the requester is a teacher. Every other action, `partial_update` included, is allowed iff the requester is signed in. |
| Access.CourseOwnerIsNeverConsulted | learning_platform/views.py:38-47 | A requester who passes the course table passes the object checks for every course, whoever owns it. |
| Access.MaterialAllowed | learning_platform/views.py:58-120 | The material list needs student or teacher. Create, retrieve, update and destroy need a teacher. Every allowed requester is signed in. |
| Access.TestAllowed | learning_platform/views.py:128-138 | A mutating method needs a teacher. The list needs student or teacher. Anything else, retrieve included, is open to everyone. |
| Access.StudentAnswerAllowed | learning_platform/views.py:185-194 | POST is allowed iff student. PUT, PATCH and DELETE are allowed iff teacher. Every other method is allowed iff signed in. |
| Access.CheckAnswersAllowed | learning_platform/views.py:210-216 | The role-dependent permission list admits exactly the signed-in users. |
| Access.PaymentAllowed | users/views.py:17-95 | Payment list and creation need a student. Status polling and activation need only a signed-in user. |
| Creation.AddCourse | learning_platform/views.py:38-50 | Succeeds iff the requester is a teacher, the owner the client sent (if any) names a stored user, the title and description pass the character-field checks, and the price has at most 8 digits before the point. Otherwise a non-teacher gets a 403 and a teacher a 400. The new course gets a new id, the stripped title and description, and the requester as owner. No other row changes. A refusal leaves the store unchanged. |
| Creation.AddCourseKeepsValid | learning_platform/views.py:49-50 | Creating a course as a stored user keeps the database valid. |
| Creation.AddMaterial | learning_platform/views.py:58-64 | Succeeds iff the requester is a teacher, the course exists, the client owner (if any) names a stored user, and the title and description pass the character-field checks. Otherwise a teacher gets a 400. The new material gets a new id, the stripped title and description, and the requester as owner. No other row changes. |
| Creation.AddMaterialKeepsValid | learning_platform/views.py:63-64 | Creating a material as a stored user keeps the database valid. |
| Visibility.MaterialQueryset | learning_platform/views.py:72-86 | For a signed-in user, a material is listed iff it belongs to a course with an `is_subscribed` row for that user, or the user owns it. The anonymous user is refused rather than given an empty list. |
| Visibility.MaterialList | learning_platform/views.py:67-86 | Answers iff the requester is a student or a teacher, and then answers exactly the queryset. |
| Visibility.UnsubscribedMaterialHidden | learning_platform/views.py:75-82 | A material of a course the user is not subscribed to, and which the user does not own, is never listed. |
| Visibility.VisibleTests | learning_platform/views.py:140-158 | An anonymous requester sees every test. A teacher sees exactly the tests on materials they own. Any other signed-in user sees exactly the tests on materials of subscribed courses. |
| Visibility.TestQueryset | learning_platform/views.py:140-165 | Without `material_id` the result is the visible tests. With `material_id` it is the visible tests on that material. A malformed id is a server error. |
| Visibility.MaterialFilterOnlyNarrows | learning_platform/views.py:160-163 | The `material_id` filter only removes tests. |
| Visibility.TestList | learning_platform/views.py:128-175 | A requester who is neither student nor teacher is refused. Everyone else gets the queryset. |
| Visibility.TestRetrieve | learning_platform/views.py:132-170 | Retrieval succeeds iff the test is in the requester's queryset, and then returns the stored test. |
| Visibility.AnonymousRetrievesEveryTest | learning_platform/views.py:136-146 | An anonymous request retrieves any existing test. |
| Visibility.AnswerList | learning_platform/views.py:178-194 | Every signed-in user gets every student answer, not only their own. |
| Visibility.CheckAnswers | learning_platform/views.py:210-242 | A missing `material_id` is a 400. A malformed or unknown one is a 404. For an existing material, a signed-in student or teacher always gets an answer set. A student (checked first) gets exactly their own answers to the material's tests. A teacher gets all answers to those tests. Any other signed-in user gets a 403 "Permission denied.". |
| Visibility.StudentViewIsTeacherViewNarrowed | learning_platform/views.py:232-237 | For an existing material, a student's answer set is the teacher's answer set narrowed to the answers whose student is the requester. |
| Grading.FirstCorrectOption | learning_platform/views.py:200 | Absent iff no option of the test is flagged correct. Otherwise it is the lowest id among the flagged options. |
| Grading.GradeAsWritten | learning_platform/views.py:200-203 | Absent (Python `None`) iff no option is flagged. Otherwise true iff the lowest-id flagged option's text equals the submitted text. |
| Grading.Grade | learning_platform/views.py:198-203 | True iff there is a flagged option and the lowest-id one has exactly the submitted text. Never true without a flagged option. |
| Grading.OnlyLowestFlaggedOptionCounts | learning_platform/views.py:200-203 | A second flagged option whose text differs from the lowest one's is graded wrong. |
| Grading.SelectedAnswer | learning_platform/serializers.py:36-40 | The field's value is the stripped text. It is accepted iff the stripped text is not blank, has at most 255 characters and holds no NUL character; otherwise the reply is a 400. |
| Fields.CleanText | learning_platform/serializers.py:8-19 | A character field accepts text iff its stripped form is not blank, fits the column's `max_length` and holds no NUL character. The value is then the stripped text. Every refusal is a 400. |
| Fields.CleanTextIsIdempotent | learning_platform/serializers.py:8-19 | Cleaning an accepted value again accepts it unchanged. |
| Fields.CleanCourse | learning_platform/models.py:8-21 | A course's fields are accepted iff the title (at most 150 characters) and the description (at most 500) both pass, and the price, in hundredths, has at most 10 digits (`max_digits=10, decimal_places=2`). The result is the row with title and description stripped. |
| Fields.CleanMaterial | learning_platform/models.py:32-33 | A material's fields are accepted iff the title (at most 150 characters) and the description (at most 1000) both pass. The result is the row with both stripped. |
| Grading.SubmitAnswerAsWritten | learning_platform/views.py:185-204 | Succeeds iff a student answers an existing test with well-formed text and the test has a flagged option. With no flagged option the request is a server error. |
| Grading.SubmitAnswer | learning_platform/views.py:196-204 | For a student, an existing test and well-formed text, it always succeeds. The new answer is stored under a new id, with the requester as student whatever the client sent, the stripped text, and the grade of the raw text. Nothing else changes. |
| Grading.SubmitAsWrittenAgreesWhenItSucceeds | learning_platform/views.py:201-204 | Whenever the code as written succeeds, it stores exactly what the corrected endpoint stores. |
| Grading.SubmitKeepsValid | learning_platform/views.py:204 | Submitting as a stored user keeps the database valid. |
| Grading.ResubmissionGradedAlike | learning_platform/views.py:200-203 | Resubmitting the same text to the same test gets the same grade. |
| Grading.UnflaggedTestBreaksSubmission | learning_platform/views.py:201-204 | On a test with no flagged option, the code as written answers "A server error occurred." (a 500). The corrected endpoint stores the answer as incorrect. |
| Grading.FreshTestCounterexample | learning_platform/views.py:200-204 | A concrete valid store (one student, one test, no options) on which the code as written fails and the corrected endpoint succeeds. |
| Grading.TrailingSpaceIsGradedWrong | learning_platform/views.py:198-204 | The right answer sent with a trailing space is stored as the right text but graded false. |
| Notifications.Fanout | learning_platform/views.py:107-114 | One message per active subscription of the course. Each message carries the subscriber's e-mail and the title. Every active subscriber gets one. |
| Notifications.FanoutReachesOnlySubscribers | learning_platform/views.py:108-114 | Every message goes to the e-mail of a user with an active subscription to the course and carries the given title. |
| Notifications.FanoutHasNoDuplicates | learning_platform/views.py:108-114 | In a valid database no two queued messages are equal. Subscriptions are unique per user and e-mails are unique. |
| Notifications.UpdateMaterial | learning_platform/views.py:95-114 | A requester the permission list refuses gets a 403. An unknown material is a 404. Unresolvable references or a title or description failing the character-field checks are a 400. Otherwise the update succeeds and exactly that row changes, to the values with title and description stripped, and the database stays valid. Exactly one message with the new stripped title is queued per active subscription of the material's course. |
| Payments.CreatePayment | users/views.py:26-51 | An anonymous requester gets "Authentication credentials were not provided." and a signed-in non-student the permission refusal. Only students may create payments. An unknown course, or a client-sent user naming no user, is a 400. Otherwise a row with the requester as user is saved under a new id, with the session, link and status the client sent. If the provider opens a session, the row gets the course price and the provider's session id and link. Otherwise the request is a 500 and the row stays without amount, holding the client's session and link. |
| Payments.CreatePaymentKeepsValid | users/views.py:34-47 | Creating a payment as a stored user keeps the database valid, whether the provider call succeeds or fails. |
| Payments.PollStatus | users/views.py:54-80 | An unknown payment is a 500 "An error occurred". For a stored payment, an invalid-request error from either provider lookup is a 400 carrying the provider's message, and any other provider failure is a 500 "An error occurred". Only when both lookups succeed is the intent's status written and returned. A failure changes nothing. |
| Payments.PollIsIdempotent | users/views.py:57-74 | With the same provider answers, a second poll gives the same reply and leaves the store as the first poll left it. |
| Payments.Upsert | users/views.py:101-106 | Only the subscription table changes, and afterwards an active row for the pair exists. |
| Payments.Activate | users/views.py:94-115 | An unknown payment is a 404 "Payment not found". A status other than exactly "succeeded", absence included, is a 400 "Payment not successful". Otherwise it answers "Subscription successful". A failure leaves the store unchanged. |
| Payments.ActivationLeavesOneActiveRow | users/views.py:100-108 | After a successful activation, the payer has exactly one subscription row for the course, and it is active. |
| Payments.ActivationFrame | users/views.py:101-106 | Activation changes only the subscription table. It removes no row, changes no row of another (user, course) pair, and adds only an active row for the payer's pair. |
| Payments.UpsertIsIdempotent | users/views.py:101-106 | A second upsert of the same pair changes nothing. |
| Payments.ActivationIsIdempotent | users/views.py:97-108 | A second activation of the same payment gives the same reply and the same store. |
| Payments.UpsertKeepsValid | users/models.py:46-57 | An upsert for an existing user and course keeps the database valid, the one-row-per-pair rule included. |
| Payments.ActivationKeepsValid | users/views.py:97-108 | Activation keeps the database valid. |
| Payments.ActivationIgnoresRequester | users/views.py:94-100 | Any two signed-in requesters get the same outcome: anyone may activate anyone's payment. |
| Scenarios.ActivationUnlocksMaterials | users/views.py:100-108 | After a successful activation, the payer (as student or teacher) sees every material of the paid course. |
| Scenarios.ClientWrittenStatusUnlocksCourse | users/serializers.py:8-17 | A student who sends status "succeeded" when creating a payment can activate the subscription and list the course's materials without paying. |
| Deletion.CascadeOnlyRemoves | learning_platform/models.py:13-99 | A cascade only removes rows. Every surviving row is unchanged. |
| Deletion.CascadeSurvivors | learning_platform/models.py:13-99 | A row survives a cascade iff it was not named for deletion, no deleted user owns it, and the row it hangs from survives. |
| Deletion.CascadeKeepsValid | learning_platform/models.py:13-99 | A cascade never leaves a dangling reference and keeps the uniqueness rules. |
| Deletion.DeleteCourse | learning_platform/models.py:34-36 | Exactly the course's materials, their tests, their options and answers, and the course's payments and subscriptions are removed. Users are untouched and the database stays valid. |
| Deletion.DeleteMaterial | learning_platform/models.py:55-60 | Exactly the material's tests and their options and answers are removed. Users, courses, payments and subscriptions are untouched. |
| Deletion.DeleteTest | learning_platform/models.py:77-99 | Exactly the test's options and student answers are removed. Everything else is untouched. |
| Deletion.DeleteUser | learning_platform/models.py:13-98 | The user is removed. A course survives iff the user does not own it. A material, test or option survives iff the user does not own it and its parent survives. An answer, payment or subscription survives iff it is not the user's and its test or course survives. The database stays valid. |
| Models.UniquePairHasAtMostOneRow | users/models.py:57 | Under the uniqueness constraint a (user, course) pair has at most one subscription row. |
| Models.SubscribedCourses | learning_platform/views.py:76-78 | A course is in the result iff the user holds an `is_subscribed` row for it. |
| LinkValidator.RunEnd | learning_platform/validators.py:8 | A match ends at the next whitespace character or at the end of the text, with no whitespace before that. |
| LinkValidator.FindAllExact | learning_platform/validators.py:8-9 | The left-to-right scan from a position returns exactly the declarative matches: positions where the pattern matches and that no earlier match could have swallowed, each ending at the next whitespace. |
| LinkValidator.Matches | learning_platform/validators.py:8-9 | A span is returned iff it is a declarative match of the whole text. |
| LinkValidator.Validate | learning_platform/validators.py:5-16 | The value is returned unchanged, or a 400 with the source's message is raised. It is rejected iff some match does not contain "youtube.com". |
| LinkValidator.NoLinkIsAccepted | learning_platform/validators.py:8-16 | Text without a scheme followed by a non-whitespace character is accepted unchanged. |
| LinkValidator.ValidationIsIdempotent | learning_platform/validators.py:16 | Validating an accepted value again accepts it again. |
| LinkValidator.MatchesStopAtWhitespace | learning_platform/validators.py:8 | A match is non-empty, contains no whitespace, and is followed by whitespace or the end of the text. |
| LinkValidator.DistinctMatchesAreSeparated | learning_platform/validators.py:8 | Two different matches do not overlap and are separated by whitespace, so a whitespace-free word holds at most one match. |
| LinkValidator.BareSchemeIsNoMatch | learning_platform/validators.py:8 | A scheme followed by whitespace or by the end of the text starts no match. |
| LinkValidator.OneLinkText | learning_platform/validators.py:8-14 | A text that is one whitespace-free link is rejected iff it lacks "youtube.com". |
| LinkValidator.HostAnywhereInLinkPasses | learning_platform/validators.py:13 | "youtube.com" anywhere in a link, its query string included, lets the link through. |
| LinkValidator.DotlessLinkIsRejected | learning_platform/validators.py:13 | A link without a dot is rejected, whatever host-like letters it holds. |
| LinkValidator.YoutubeWithoutDotIsRejected | learning_platform/validators.py:13 | `http://youtubeXcom` is rejected. |
| Text.Strip | learning_platform/serializers.py:36-40 | The result is the input minus a whitespace-only prefix and suffix. It neither starts nor ends with whitespace, and it is empty iff the input is all whitespace. |
| Text.StripIsIdempotent | learning_platform/serializers.py:36-40 | Stripping twice is stripping once. |

## Left out

- Stripe (users/services.py and the provider calls in users/views.py) is not modelled. Its answers are the parameters `checkout`, `session` and `intent`. The `int(amount * 100)` cents conversion is only an argument to those calls.
- Payments.PollStatus: the `amount_received / 100` float division for the response body is not modelled; the integer amount is returned as is.
- Notifications.Fanout: the Celery queue and the e-mail sending in learning_platform/tascs.py are I/O. The model returns the list of messages queued, in subscription-id order; the real database order is unspecified.
- URL routing, settings, admin, migrations, management commands, pagination, timestamps and the debug `print` calls are plumbing, not decisions.
- Parsing the `material_id` query-string text into `IdParam` is not modelled. `Malformed` stands for text Django cannot turn into an integer.
- Notifications.UpdateMaterial: a partial update (PATCH) is modelled by the merged full row, and the model cleans all of it, including the fields the client did not send. The endpoint validates only the sent fields, so the model agrees with it only when the stored title and description are already clean (stripped, not blank, within their lengths). A stored row that is not, for example one created outside the serializer, gets a 400 or a stripped value in the model where the endpoint answers 200 and keeps it.
- The 401 a JWT backend answers instead of 403 for an anonymous requester is not modelled; both are `Denied`.
- Column defaults (`is_correct` and `is_subscribed` false) apply only to rows created outside the modelled operations: every modelled insert sets both explicitly.
- Missing or non-string request fields are not modelled. Character-field checks are modelled for `selected_answer` and for the titles and descriptions of courses and materials, not for the payment fields.
- Payments.CreatePayment: the client's session, link and status are stored as sent. Their length limits (100, 400 and 50 characters), the URL check on the link and the whitespace stripping are not modelled, and an explicit null `user` (a 400) is treated like an absent one.
- Creation.AddMaterial: the URL check on a client-sent `video_url` is not modelled.
- Course prices are whole hundredths (`int`). Decimal arithmetic, and the 400 for a price sent with more than 2 decimal places, are not modelled.
- Concurrency is not modelled. Each operation is one sequential store transition, and a request that fails midway keeps whatever it saved before failing, as the database has no per-request transaction.
- The link validator is not attached to any serializer in this code base, so it is modelled on its own.
- The mutating branch of `TestViewSet.get_permissions` is modelled in Access.TestAllowed, although the read-only viewset never routes such methods to a handler.

## Findings

| source | as written | input that shows it | evidently intended | confidence | as-written member | corrected member |
|---|---|---|---|---|---|---|
| learning_platform/views.py:200-204 | the computed grade is Python's `None` when no option is flagged, and saving `None` into the non-null `is_correct` column fails, so the submission is a server error | a student answers a test that has no option flagged correct (Grading.FreshTestCounterexample) | the answer is stored and graded incorrect | high (not executed) | Grading.SubmitAnswerAsWritten | Grading.SubmitAnswer |

=== FILE: access.dfy ===
/** The per-endpoint permission tables of learning_platform/views.py and
    users/views.py: which permission classes each action or HTTP method of
    each view requires. */
module Access {
  import opened Common
  import opened Permissions

  datatype HttpMethod = Get | Post | Put | Patch | Delete | Head | Options

  /** The router actions of `CourseViewSet`; any other action name (for
      instance `metadata` on OPTIONS) is `OtherAction`. */
  datatype CourseAction =
    | ListCourses
    | CreateCourse
    | RetrieveCourse
    | UpdateCourse
    | PartialUpdateCourse
    | DestroyCourse
    | OtherAction(name: string)

  /** `CourseViewSet.get_permissions`. */
  function CourseChecks(a: CourseAction): set<Check>
  {
    match a
    case ListCourses => {AllowAny}
    case CreateCourse => {Authenticated, Teacher}
    case UpdateCourse => {Authenticated, Teacher}
    case RetrieveCourse => {Authenticated, Teacher}
    case DestroyCourse => {Authenticated, Teacher}
    case _ => {Authenticated}
  }

  predicate NeedsTeacher(a: CourseAction)
  {
    a.CreateCourse? || a.UpdateCourse? || a.RetrieveCourse? || a.DestroyCourse?
  }

  /** Listing is open to everyone; create, update, retrieve and destroy need
      a signed-in teacher; every other action, partial update included,
      needs only a signed-in user. */
  function CourseAllowed(a: CourseAction, r: Requester): (ok: bool)
    ensures a.ListCourses? ==> ok
    ensures NeedsTeacher(a) ==> (ok <==> IsTeacher(r))
    ensures !a.ListCourses? && !NeedsTeacher(a) ==> (ok <==> r.SignedIn?)
  {
    AllPass(CourseChecks(a), r)
  }

  /** Course detail actions never consult the course's owner: whoever passes
      the request-level table may act on any course, so any signed-in user,
      student or not, may partially update any course. */
  lemma CourseOwnerIsNeverConsulted(a: CourseAction, r: Requester, owner: Option<UserId>)
    requires CourseAllowed(a, r)
    ensures AllPassOnObject(CourseChecks(a), r, owner)
  {
    ObjectCheckNeverNarrows(CourseChecks(a), r, owner);
  }

  /** The material views: create, retrieve, update and destroy need a
      signed-in teacher; the list needs `IsStudent | IsTeacher`. */
  datatype MaterialView = MaterialCreate | MaterialList | MaterialRetrieve | MaterialUpdate | MaterialDestroy

  function MaterialChecks(v: MaterialView): set<Check>
  {
    if v.MaterialList? then {StudentOrTeacher} else {Authenticated, Teacher}
  }

  function MaterialAllowed(v: MaterialView, r: Requester): (ok: bool)
    ensures v.MaterialList? ==> (ok <==> IsStudent(r) || IsTeacher(r))
    ensures !v.MaterialList? ==> (ok <==> IsTeacher(r))
    ensures ok ==> r.SignedIn?
  {
    AllPass(MaterialChecks(v), r)
  }

  /** `TestViewSet.get_permissions`: a mutating method needs `IsTeacher`, the
      list action `IsStudent | IsTeacher`, and anything else (retrieve among
      them) no permission class at all. */
  function TestChecks(m: HttpMethod, isList: bool): set<Check>
  {
    if m in {Post, Put, Patch, Delete} then {Teacher}
    else if isList then {StudentOrTeacher}
    else {}
  }

  function TestAllowed(m: HttpMethod, isList: bool, r: Requester): (ok: bool)
    ensures m in {Post, Put, Patch, Delete} ==> (ok <==> IsTeacher(r))
    ensures m !in {Post, Put, Patch, Delete} && isList ==> (ok <==> IsStudent(r) || IsTeacher(r))
    ensures m !in {Post, Put, Patch, Delete} && !isList ==> ok
  {
    AllPass(TestChecks(m, isList), r)
  }

  /** `StudentAnswerViewSet.get_permissions`. */
  function StudentAnswerChecks(m: HttpMethod): set<Check>
  {
    if m == Post then {Student}
    else if m in {Put, Patch, Delete} then {Teacher}
    else {Authenticated}
  }

  /** Submitting needs the student role, changing or deleting needs the
      teacher role, and every other method (listing included) needs only a
      signed-in user. */
  function StudentAnswerAllowed(m: HttpMethod, r: Requester): (ok: bool)
    ensures m == Post ==> (ok <==> IsStudent(r))
    ensures m in {Put, Patch, Delete} ==> (ok <==> IsTeacher(r))
    ensures m !in {Post, Put, Patch, Delete} ==> (ok <==> r.SignedIn?)
  {
    AllPass(StudentAnswerChecks(m), r)
  }

  /** `CheckAnswersView.get_permissions`, which picks the list from the
      requester's groups. */
  function CheckAnswersChecks(r: Requester): set<Check>
  {
    if r.InGroup(StudentGroup) then {Authenticated, Student}
    else if r.InGroup(TeacherGroup) then {Authenticated, Teacher}
    else {Authenticated}
  }

  /** Whatever list is picked, it admits exactly the signed-in users: the
      role a list names is the role that selected it. */
  function CheckAnswersAllowed(r: Requester): (ok: bool)
    ensures ok <==> r.SignedIn?
  {
    AllPass(CheckAnswersChecks(r), r)
  }

  /** The payment and subscription views of users/views.py. */
  datatype PaymentView = PaymentList | PaymentCreate | PaymentStatus | SubscriptionHandler

  function PaymentChecks(v: PaymentView): set<Check>
  {
    if v.PaymentList? || v.PaymentCreate? then {Authenticated, Student} else {Authenticated}
  }

  function PaymentAllowed(v: PaymentView, r: Requester): (ok: bool)
    ensures (v.PaymentList? || v.PaymentCreate?) ==> (ok <==> IsStudent(r))
    ensures (v.PaymentStatus? || v.SubscriptionHandler?) ==> (ok <==> r.SignedIn?)
  {
    AllPass(PaymentChecks(v), r)
  }
}

=== FILE: common.dfy ===
/** Shared vocabulary of the model: optional values, row identifiers, the
    requesting principal and the outcome of an endpoint. */
module Common {

  /** A value that may be absent (a nullable column, a missing row). */
  datatype Option<+T> = None | Some(value: T)

  /** Primary keys. Django's auto-increment ids are positive integers; the
      model only needs them to be naturals that can be compared. */
  type UserId = nat
  type CourseId = nat
  type MaterialId = nat
  type TestId = nat
  type OptionId = nat
  type AnswerId = nat
  type PaymentId = nat
  type SubscriptionId = nat

  /** Names of the two permission groups, exactly as the source spells them. */
  const StudentGroup: string := "Студенты"
  const TeacherGroup: string := "Преподаватели"

  /** The `request.user` of one request: either the anonymous user (which
      belongs to no group) or a signed-in user together with the names of
      the groups it belongs to. */
  datatype Requester = Anonymous | SignedIn(id: UserId, groups: set<string>)
  {
    predicate IsAuthenticated() { SignedIn? }

    /** `user.groups.filter(name=g).exists()`; the anonymous user's group
        manager is always empty. */
    predicate InGroup(g: string) { SignedIn? && g in groups }

    /** `obj.owner == request.user` for a nullable owner column. */
    predicate IsOwner(owner: Option<UserId>) { SignedIn? && owner == Some(id) }
  }

  /** The error classes an endpoint can answer with. */
  datatype ErrorKind =
    | Denied       // a permission class refused the request
    | BadRequest   // 400
    | NotFound     // 404
    | ServerError  // 500

  /** The outcome of an endpoint: a payload or an error with its message. */
  datatype Reply<+T> = Ok(value: T) | Fail(kind: ErrorKind, detail: string)
}

=== FILE: creation.dfy ===
/** Creating courses and materials: `CourseViewSet.perform_create` and
    `MaterialCreateAPIView.perform_create` save the validated fields with the
    requester as owner. */
module Creation {
  import opened Common
  import opened Models
  import opened Permissions
  import opened Access
  import opened SetOps
  import opened Text
  import opened Fields

  /** Create a course. Only a signed-in teacher may. The serializer strips
      the title and description and answers 400 when either is blank, too
      long or holds a NUL character, when the price has more than 8 digits
      before the point, and when the owner the client sent
      names no user; otherwise the owner sent is replaced by the requester,
      the cleaned row gets a new id, and no other row changes. */
  function AddCourse(s: Store, r: Requester, data: Course): (res: Step<CourseId>)
    ensures res.reply.Ok? <==> IsTeacher(r) && OwnerResolves(s, data.owner) && CleanCourse(data).Ok?
    ensures !IsTeacher(r) ==> res.reply.Fail? && res.reply.kind == Denied
    ensures IsTeacher(r) && !(OwnerResolves(s, data.owner) && CleanCourse(data).Ok?) ==>
      res.reply.Fail? && res.reply.kind == BadRequest
    ensures IsTeacher(r) && !PriceFits(data.price) ==> res.reply.Fail? && res.reply.kind == BadRequest
    ensures res.reply.Fail? ==> res.store == s
    ensures res.reply.Ok? ==>
      && r.SignedIn?
      && res.reply.value !in s.courses
      && res.reply.value in res.store.courses
      && res.store.courses[res.reply.value].owner == Some(r.id)
      && res.store.courses[res.reply.value] ==
           data.(title := Strip(data.title), description := Strip(data.description), owner := Some(r.id))
      && res.store == s.(courses := s.courses[res.reply.value := res.store.courses[res.reply.value]])
  {
    if !CourseAllowed(CreateCourse, r) then
      Step(Fail(Denied, "You do not have permission to perform this action."), s)
    else if !OwnerResolves(s, data.owner) then
      Step(Fail(BadRequest, "Invalid pk - object does not exist."), s)
    else match CleanCourse(data)
      case Fail(_, detail) => Step(Fail(BadRequest, detail), s)
      case Ok(clean) =>
        var id := FreshId(s.courses.Keys);
        Step(Ok(id), s.(courses := s.courses[id := clean.(owner := Some(r.id))]))
  }

  /** Create a material. Only a signed-in teacher may. The serializer
      answers 400 when the course does not exist, a client-sent owner names
      no user, or the stripped title or description is blank, too long or
      holds a NUL character; otherwise the cleaned row is saved with the
      requester as owner. */
  function AddMaterial(s: Store, r: Requester, data: Material): (res: Step<MaterialId>)
    ensures res.reply.Ok? <==>
      IsTeacher(r) && data.course in s.courses && OwnerResolves(s, data.owner) && CleanMaterial(data).Ok?
    ensures !IsTeacher(r) ==> res.reply.Fail? && res.reply.kind == Denied
    ensures IsTeacher(r) && !(data.course in s.courses && OwnerResolves(s, data.owner) && CleanMaterial(data).Ok?) ==>
      res.reply.Fail? && res.reply.kind == BadRequest
    ensures res.reply.Fail? ==> res.store == s
    ensures res.reply.Ok? ==>
      && r.SignedIn?
      && res.reply.value !in s.materials
      && res.reply.value in res.store.materials
      && res.store.materials[res.reply.value] ==
           data.(title := Strip(data.title), description := Strip(data.description), owner := Some(r.id))
      && res.store == s.(materials := s.materials[res.reply.value := res.store.materials[res.reply.value]])
  {
    if !MaterialAllowed(MaterialCreate, r) then
      Step(Fail(Denied, "You do not have permission to perform this action."), s)
    else if data.course !in s.courses || !OwnerResolves(s, data.owner) then
      Step(Fail(BadRequest, "Invalid pk - object does not exist."), s)
    else match CleanMaterial(data)
      case Fail(_, detail) => Step(Fail(BadRequest, detail), s)
      case Ok(clean) =>
        var id := FreshId(s.materials.Keys);
        Step(Ok(id), s.(materials := s.materials[id := clean.(owner := Some(r.id))]))
  }

  /** A course created by a stored user keeps the database consistent. */
  lemma AddCourseKeepsValid(s: Store, r: Requester, data: Course)
    requires Valid(s) && r.SignedIn? && r.id in s.users
    ensures Valid(AddCourse(s, r, data).store)
  {
  }

  /** A material created by a stored user keeps the database consistent. */
  lemma AddMaterialKeepsValid(s: Store, r: Requester, data: Material)
    requires Valid(s) && r.SignedIn? && r.id in s.users
    ensures Valid(AddMaterial(s, r, data).store)
  {
  }
}

=== FILE: deletion.dfy ===
/** Deletion with `on_delete=CASCADE`. The containment tree is
    Course -> Material -> Test -> AnswerOption / StudentAnswer; every owner,
    student and payer column cascades from the user table; payments and
    subscriptions cascade from both their user and their course. Because the
    tree has fixed depth, the cascade closure is computed level by level. */
module Deletion {
  import opened Common
  import opened Models

  predicate OwnedByAny(owner: Option<UserId>, us: set<UserId>)
  {
    owner.Some? && owner.value in us
  }

  function DeadCourses(s: Store, us: set<UserId>, cs: set<CourseId>): set<CourseId>
  {
    set c | c in s.courses && (c in cs || OwnedByAny(s.courses[c].owner, us))
  }

  function DeadMaterials(s: Store, us: set<UserId>, dc: set<CourseId>, ms: set<MaterialId>): set<MaterialId>
  {
    set m | m in s.materials &&
      (m in ms || s.materials[m].course in dc || OwnedByAny(s.materials[m].owner, us))
  }

  function DeadTests(s: Store, us: set<UserId>, dm: set<MaterialId>, ts: set<TestId>): set<TestId>
  {
    set t | t in s.tests &&
      (t in ts || s.tests[t].material in dm || OwnedByAny(s.tests[t].owner, us))
  }

  function DeadOptions(s: Store, us: set<UserId>, dt: set<TestId>): set<OptionId>
  {
    set o | o in s.options && (s.options[o].test in dt || OwnedByAny(s.options[o].owner, us))
  }

  function DeadAnswers(s: Store, us: set<UserId>, dt: set<TestId>): set<AnswerId>
  {
    set a | a in s.answers && (s.answers[a].test in dt || s.answers[a].student in us)
  }

  function DeadPayments(s: Store, us: set<UserId>, dc: set<CourseId>): set<PaymentId>
  {
    set p | p in s.payments && (s.payments[p].course in dc || s.payments[p].user in us)
  }

  function DeadSubscriptions(s: Store, us: set<UserId>, dc: set<CourseId>): set<SubscriptionId>
  {
    set k | k in s.subscriptions &&
      (s.subscriptions[k].course in dc || s.subscriptions[k].user in us)
  }

  /** Delete the users `us`, courses `cs`, materials `ms` and tests `ts`
      together with every row that cascades from them. Every surviving row
      is unchanged, and the integrity of the database is kept. */
  function Cascade(s: Store, us: set<UserId>, cs: set<CourseId>, ms: set<MaterialId>, ts: set<TestId>): (r: Store)
    ensures r.users.Keys == s.users.Keys - us
    ensures r.courses.Keys <= s.courses.Keys - cs
    ensures r.materials.Keys <= s.materials.Keys - ms
    ensures r.tests.Keys <= s.tests.Keys - ts
  {
    var dc := DeadCourses(s, us, cs);
    var dm := DeadMaterials(s, us, dc, ms);
    var dt := DeadTests(s, us, dm, ts);
    Store(
      s.users - us,
      s.courses - dc,
      s.materials - dm,
      s.tests - dt,
      s.options - DeadOptions(s, us, dt),
      s.answers - DeadAnswers(s, us, dt),
      s.payments - DeadPayments(s, us, dc),
      s.subscriptions - DeadSubscriptions(s, us, dc))
  }

  /** The cascade only removes rows: every surviving row is unchanged. */
  lemma CascadeOnlyRemoves(s: Store, us: set<UserId>, cs: set<CourseId>, ms: set<MaterialId>, ts: set<TestId>)
    ensures var r := Cascade(s, us, cs, ms, ts);
      && (forall u :: u in r.users ==> u in s.users && r.users[u] == s.users[u])
      && (forall c :: c in r.courses ==> c in s.courses && r.courses[c] == s.courses[c])
      && (forall m :: m in r.materials ==> m in s.materials && r.materials[m] == s.materials[m])
      && (forall t :: t in r.tests ==> t in s.tests && r.tests[t] == s.tests[t])
      && (forall o :: o in r.options ==> o in s.options && r.options[o] == s.options[o])
      && (forall a :: a in r.answers ==> a in s.answers && r.answers[a] == s.answers[a])
      && (forall p :: p in r.payments ==> p in s.payments && r.payments[p] == s.payments[p])
      && (forall k :: k in r.subscriptions ==>
            k in s.subscriptions && r.subscriptions[k] == s.subscriptions[k])
  {
  }

  /** The cascade never leaves a dangling foreign key and cannot create a
      duplicate subscription or e-mail. */
  lemma CascadeKeepsValid(s: Store, us: set<UserId>, cs: set<CourseId>, ms: set<MaterialId>, ts: set<TestId>)
    requires Valid(s)
    ensures Valid(Cascade(s, us, cs, ms, ts))
  {
    var r := Cascade(s, us, cs, ms, ts);
    var dc := DeadCourses(s, us, cs);
    var dm := DeadMaterials(s, us, dc, ms);
    var dt := DeadTests(s, us, dm, ts);
    forall c | c in r.courses ensures OwnerResolves(r, r.courses[c].owner) {
      assert c !in dc;
    }
    forall m | m in r.materials
      ensures r.materials[m].course in r.courses && OwnerResolves(r, r.materials[m].owner)
    {
      assert m !in dm;
      assert s.materials[m].course !in dc;
    }
    forall t | t in r.tests
      ensures r.tests[t].material in r.materials && OwnerResolves(r, r.tests[t].owner)
    {
      assert t !in dt;
      assert s.tests[t].material !in dm;
    }
    forall o | o in r.options
      ensures r.options[o].test in r.tests && OwnerResolves(r, r.options[o].owner)
    {
      assert o !in DeadOptions(s, us, dt);
      assert s.options[o].test !in dt;
    }
    forall a | a in r.answers ensures r.answers[a].student in r.users && r.answers[a].test in r.tests {
      assert a !in DeadAnswers(s, us, dt);
    }
    forall p | p in r.payments ensures r.payments[p].user in r.users && r.payments[p].course in r.courses {
      assert p !in DeadPayments(s, us, dc);
    }
    forall k | k in r.subscriptions
      ensures r.subscriptions[k].user in r.users && r.subscriptions[k].course in r.courses
    {
      assert k !in DeadSubscriptions(s, us, dc);
    }
    assert ReferencesResolve(r);
  }

  /** Which rows survive a cascade: a row survives precisely when it was not
      named for deletion, is not owned by a deleted user, and the row it
      hangs from survives. */
  lemma CascadeSurvivors(s: Store, us: set<UserId>, cs: set<CourseId>, ms: set<MaterialId>, ts: set<TestId>)
    requires Valid(s)
    ensures var r := Cascade(s, us, cs, ms, ts);
      && (forall c :: c in s.courses ==>
            (c in r.courses <==> c !in cs && !OwnedByAny(s.courses[c].owner, us)))
      && (forall m :: m in s.materials ==>
            (m in r.materials <==>
               m !in ms && !OwnedByAny(s.materials[m].owner, us) && s.materials[m].course in r.courses))
      && (forall t :: t in s.tests ==>
            (t in r.tests <==>
               t !in ts && !OwnedByAny(s.tests[t].owner, us) && s.tests[t].material in r.materials))
      && (forall o :: o in s.options ==>
            (o in r.options <==> !OwnedByAny(s.options[o].owner, us) && s.options[o].test in r.tests))
      && (forall a :: a in s.answers ==>
            (a in r.answers <==> s.answers[a].student !in us && s.answers[a].test in r.tests))
      && (forall p :: p in s.payments ==>
            (p in r.payments <==> s.payments[p].user !in us && s.payments[p].course in r.courses))
      && (forall k :: k in s.subscriptions ==>
            (k in r.subscriptions <==>
               s.subscriptions[k].user !in us && s.subscriptions[k].course in r.courses))
  {
  }

  /** Deleting a course removes exactly its materials, their tests, those
      tests' options and student answers, and the course's payments and
      subscriptions; nothing else is removed. */
  function DeleteCourse(s: Store, c: CourseId): (r: Store)
    requires Valid(s)
    ensures Valid(r)
    ensures c !in r.courses && r.courses.Keys == s.courses.Keys - {c}
    ensures r.users == s.users
    ensures forall m :: m in s.materials ==>
      (m in r.materials <==> s.materials[m].course != c)
    ensures forall t :: t in s.tests ==>
      (t in r.tests <==> s.materials[s.tests[t].material].course != c)
    ensures forall o :: o in s.options ==>
      (o in r.options <==> s.materials[s.tests[s.options[o].test].material].course != c)
    ensures forall a :: a in s.answers ==>
      (a in r.answers <==> s.materials[s.tests[s.answers[a].test].material].course != c)
    ensures forall p :: p in s.payments ==> (p in r.payments <==> s.payments[p].course != c)
    ensures forall k :: k in s.subscriptions ==>
      (k in r.subscriptions <==> s.subscriptions[k].course != c)
  {
    CascadeKeepsValid(s, {}, {c}, {}, {});
    Cascade(s, {}, {c}, {}, {})
  }

  /** Deleting a material removes exactly its tests and their options and
      student answers; courses, payments and subscriptions are untouched. */
  function DeleteMaterial(s: Store, m: MaterialId): (r: Store)
    requires Valid(s)
    ensures Valid(r)
    ensures r.users == s.users && r.courses == s.courses
    ensures r.payments == s.payments && r.subscriptions == s.subscriptions
    ensures r.materials.Keys == s.materials.Keys - {m}
    ensures forall t :: t in s.tests ==> (t in r.tests <==> s.tests[t].material != m)
    ensures forall o :: o in s.options ==>
      (o in r.options <==> s.tests[s.options[o].test].material != m)
    ensures forall a :: a in s.answers ==>
      (a in r.answers <==> s.tests[s.answers[a].test].material != m)
  {
    CascadeKeepsValid(s, {}, {}, {m}, {});
    assert DeadCourses(s, {}, {}) == {};
    assert DeadPayments(s, {}, {}) == {};
    assert DeadSubscriptions(s, {}, {}) == {};
    Cascade(s, {}, {}, {m}, {})
  }

  /** Deleting a test removes exactly its answer options and every student
      answer to it. */
  function DeleteTest(s: Store, t: TestId): (r: Store)
    requires Valid(s)
    ensures Valid(r)
    ensures r.users == s.users && r.courses == s.courses && r.materials == s.materials
    ensures r.payments == s.payments && r.subscriptions == s.subscriptions
    ensures r.tests.Keys == s.tests.Keys - {t}
    ensures forall o :: o in s.options ==> (o in r.options <==> s.options[o].test != t)
    ensures forall a :: a in s.answers ==> (a in r.answers <==> s.answers[a].test != t)
  {
    CascadeKeepsValid(s, {}, {}, {}, {t});
    Cascade(s, {}, {}, {}, {t})
  }

  /** Deleting a user removes exactly the user and every course, material,
      test and answer option it owns (with their own cascades), its student
      answers, payments and subscriptions. A row survives precisely when it
      is neither the user's nor hangs from a row that was removed. */
  function DeleteUser(s: Store, u: UserId): (r: Store)
    requires Valid(s)
    ensures Valid(r)
    ensures r.users.Keys == s.users.Keys - {u}
    ensures forall c :: c in r.courses ==> r.courses[c].owner != Some(u)
    ensures forall m :: m in r.materials ==> r.materials[m].owner != Some(u)
    ensures forall t :: t in r.tests ==> r.tests[t].owner != Some(u)
    ensures forall o :: o in r.options ==> r.options[o].owner != Some(u)
    ensures forall a :: a in r.answers ==> r.answers[a].student != u
    ensures forall p :: p in r.payments ==> r.payments[p].user != u
    ensures forall k :: k in r.subscriptions ==> r.subscriptions[k].user != u
    ensures forall c :: c in s.courses && s.courses[c].owner == None ==> c in r.courses
    ensures forall c :: c in s.courses ==> (c in r.courses <==> s.courses[c].owner != Some(u))
    ensures forall m :: m in s.materials ==>
      (m in r.materials <==> s.materials[m].owner != Some(u) && s.materials[m].course in r.courses)
    ensures forall t :: t in s.tests ==>
      (t in r.tests <==> s.tests[t].owner != Some(u) && s.tests[t].material in r.materials)
    ensures forall o :: o in s.options ==>
      (o in r.options <==> s.options[o].owner != Some(u) && s.options[o].test in r.tests)
    ensures forall a :: a in s.answers ==>
      (a in r.answers <==> s.answers[a].student != u && s.answers[a].test in r.tests)
    ensures forall p :: p in s.payments ==>
      (p in r.payments <==> s.payments[p].user != u && s.payments[p].course in r.courses)
    ensures forall k :: k in s.subscriptions ==>
      (k in r.subscriptions <==> s.subscriptions[k].user != u && s.subscriptions[k].course in r.courses)
  {
    CascadeKeepsValid(s, {u}, {}, {}, {});
    CascadeSurvivors(s, {u}, {}, {}, {});
    Cascade(s, {u}, {}, {}, {})
  }
}

=== FILE: fields.dfy ===
/** Validation of the character fields the serializers build from the
    models' `CharField` and `TextField` columns: the input is stripped of
    surrounding whitespace, then refused with a 400 when it is blank, longer
    than the column's `max_length`, or holds a NUL character. */
module Fields {
  import opened Common
  import opened Models
  import opened Text

  /** Decimal spelling of a natural number, for error messages. */
  function Decimal(n: nat): string
  {
    if n < 10 then [(48 + n) as char] else Decimal(n / 10) + Decimal(n % 10)
  }

  /** One required character field of at most `maxLength` characters. */
  function CleanText(text: string, maxLength: nat): (res: Reply<string>)
    ensures res.Ok? <==> Strip(text) != [] && |Strip(text)| <= maxLength && '\0' !in Strip(text)
    ensures res.Ok? ==> res.value == Strip(text)
    ensures res.Fail? ==> res.kind == BadRequest
  {
    var v := Strip(text);
    if v == [] then Fail(BadRequest, "This field may not be blank.")
    else if |v| > maxLength then
      Fail(BadRequest, "Ensure this field has no more than " + Decimal(maxLength) + " characters.")
    else if '\0' in v then Fail(BadRequest, "Null characters are not allowed.")
    else Ok(v)
  }

  /** Cleaning is idempotent: a value the field accepted is accepted again
      unchanged. */
  lemma CleanTextIsIdempotent(text: string, maxLength: nat)
    requires CleanText(text, maxLength).Ok?
    ensures CleanText(CleanText(text, maxLength).value, maxLength) == CleanText(text, maxLength)
  {
    StripIsIdempotent(text);
  }

  /** `pay_amount_course` is a decimal of at most 10 digits, 2 of them after
      the point: a price in hundredths fits iff it has at most 10 digits. */
  predicate PriceFits(price: int)
  {
    -10000000000 < price < 10000000000
  }

  /** `title` (at most 150 characters), `description` (at most 500) and the
      price of a course. The owner is checked by the endpoint. */
  function CleanCourse(data: Course): (res: Reply<Course>)
    ensures res.Ok? <==>
      CleanText(data.title, 150).Ok? && CleanText(data.description, 500).Ok? && PriceFits(data.price)
    ensures res.Ok? ==> res.value == data.(title := Strip(data.title), description := Strip(data.description))
    ensures res.Fail? ==> res.kind == BadRequest
  {
    var title := CleanText(data.title, 150);
    var description := CleanText(data.description, 500);
    if title.Fail? then Fail(BadRequest, title.detail)
    else if description.Fail? then Fail(BadRequest, description.detail)
    else if !PriceFits(data.price) then
      Fail(BadRequest, "Ensure that there are no more than 8 digits before the decimal point.")
    else Ok(data.(title := title.value, description := description.value))
  }

  /** `title` (at most 150 characters) and `description` (at most 1000) of a
      material. The course and owner are checked by the endpoint. */
  function CleanMaterial(data: Material): (res: Reply<Material>)
    ensures res.Ok? <==> CleanText(data.title, 150).Ok? && CleanText(data.description, 1000).Ok?
    ensures res.Ok? ==> res.value == data.(title := Strip(data.title), description := Strip(data.description))
    ensures res.Fail? ==> res.kind == BadRequest
  {
    var title := CleanText(data.title, 150);
    var description := CleanText(data.description, 1000);
    if title.Fail? then Fail(BadRequest, title.detail)
    else if description.Fail? then Fail(BadRequest, description.detail)
    else Ok(data.(title := title.value, description := description.value))
  }
}

=== FILE: grading.dfy ===
/** Answer grading of `StudentAnswerViewSet.perform_create`: the submitted
    text is compared with the text of the first answer option of the test
    that is flagged correct, "first" meaning lowest primary key. */
module Grading {
  import opened Common
  import opened Models
  import opened Permissions
  import opened Access
  import opened SetOps
  import opened Text
  import opened Fields

  /** Ids of the options of test `t` flagged correct. */
  function CorrectOptions(s: Store, t: TestId): set<OptionId>
  {
    set o | o in s.options && s.options[o].test == t && s.options[o].isCorrect
  }

  /** `AnswerOption.objects.filter(test=t, is_correct=True).first()`. */
  function FirstCorrectOption(s: Store, t: TestId): (r: Option<OptionId>)
    ensures r.None? <==> forall o :: o in s.options && s.options[o].test == t ==> !s.options[o].isCorrect
    ensures r.Some? ==> IsLeast(r.value, CorrectOptions(s, t))
  {
    var flagged := CorrectOptions(s, t);
    if flagged == {} then
      assert forall o :: o in s.options && s.options[o].test == t ==> o !in flagged;
      None
    else Some(MinOf(flagged))
  }

  /** The grade as the source computes it: Python's `a and b` yields `None`
      when there is no flagged option, and the boolean comparison otherwise. */
  function GradeAsWritten(s: Store, t: TestId, text: string): (g: Option<bool>)
    ensures g.None? <==> CorrectOptions(s, t) == {}
    ensures g.Some? ==> (g.value <==> exists o: nat :: IsLeast(o, CorrectOptions(s, t)) && s.options[o].answerText == text)
  {
    match FirstCorrectOption(s, t)
    case None => None
    case Some(o) => Some(s.options[o].answerText == text)
  }

  /** The grade with the evident intent: correct iff the test has a flagged
      option and the lowest-id one carries exactly the submitted text; with
      no flagged option the answer is never correct. */
  function Grade(s: Store, t: TestId, text: string): (ok: bool)
    ensures ok <==> exists o: nat :: IsLeast(o, CorrectOptions(s, t)) && s.options[o].answerText == text
    ensures CorrectOptions(s, t) == {} ==> !ok
  {
    GradeAsWritten(s, t, text) == Some(true)
  }

  /** When several options are flagged correct, only the lowest-id one is
      ever accepted: the text of any other flagged option, if it differs,
      is graded wrong. */
  lemma OnlyLowestFlaggedOptionCounts(s: Store, t: TestId, other: OptionId)
    requires other in CorrectOptions(s, t)
    requires s.options[FirstCorrectOption(s, t).value].answerText != s.options[other].answerText
    ensures !Grade(s, t, s.options[other].answerText)
  {
    var m := FirstCorrectOption(s, t).value;
    forall o: nat | IsLeast(o, CorrectOptions(s, t)) ensures o == m {
      assert o <= m && m <= o;
    }
  }

  /** The result of a successful submission: the new store and the id of
      the stored answer. */
  datatype Submitted = Submitted(store: Store, id: AnswerId)

  /** Store a graded answer for the requester under a fresh id. */
  function Record(s: Store, r: Requester, t: TestId, text: string, correct: bool): Submitted
    requires r.SignedIn?
  {
    var id := FreshId(s.answers.Keys);
    Submitted(s.(answers := s.answers[id := StudentAnswer(r.id, t, text, correct)]), id)
  }

  /** The serializer's `selected_answer` field (a required character field
      of at most 255 characters): the text is stripped of surrounding
      whitespace, and blank or overlong text, or text holding a NUL
      character (refused by every character field), is a 400. */
  function SelectedAnswer(text: string): (res: Reply<string>)
    ensures res.Ok? <==> Strip(text) != [] && |Strip(text)| <= 255 && '\0' !in Strip(text)
    ensures res.Ok? ==> res.value == Strip(text)
    ensures res.Fail? ==> res.kind == BadRequest
  {
    CleanText(text, 255)
  }

  /** The submission endpoint as written. The client's `student` field is
      read-only and ignored. With no flagged option the computed value is
      `None`, which the non-null `is_correct` column rejects: the insert
      fails and the request ends in a server error. */
  function SubmitAnswerAsWritten(s: Store, r: Requester, t: TestId, text: string, clientStudent: UserId): (res: Reply<Submitted>)
    ensures res.Ok? <==> IsStudent(r) && t in s.tests && SelectedAnswer(text).Ok? && CorrectOptions(s, t) != {}
    ensures res.Fail? && res.kind == ServerError <==>
      IsStudent(r) && t in s.tests && SelectedAnswer(text).Ok? && CorrectOptions(s, t) == {}
  {
    if !StudentAnswerAllowed(Post, r) then Fail(Denied, "You do not have permission to perform this action.")
    else if t !in s.tests then Fail(BadRequest, "Invalid pk - object does not exist.")
    else if SelectedAnswer(text).Fail? then Fail(BadRequest, SelectedAnswer(text).detail)
    else match GradeAsWritten(s, t, text)
      case None => Fail(ServerError, "A server error occurred.")
      case Some(b) => Ok(Record(s, r, t, SelectedAnswer(text).value, b))
  }

  /** The submission endpoint with the corrected grade. A student's
      well-formed answer to an existing test is always stored, under a new
      id, with the requester as student whatever student id the client sent,
      with the stripped text and with the grade of the raw text; nothing else
      in the store changes. */
  function SubmitAnswer(s: Store, r: Requester, t: TestId, text: string, clientStudent: UserId): (res: Reply<Submitted>)
    ensures !IsStudent(r) ==> res.Fail? && res.kind == Denied
    ensures IsStudent(r) && (t !in s.tests || SelectedAnswer(text).Fail?) ==> res.Fail? && res.kind == BadRequest
    ensures res.Ok? <==> IsStudent(r) && t in s.tests && SelectedAnswer(text).Ok?
    ensures res.Ok? ==> res.value.id !in s.answers
    ensures res.Ok? ==>
      res.value.store.answers == s.answers[res.value.id := StudentAnswer(r.id, t, Strip(text), Grade(s, t, text))]
    ensures res.Ok? ==> res.value.store == s.(answers := res.value.store.answers)
  {
    if !StudentAnswerAllowed(Post, r) then Fail(Denied, "You do not have permission to perform this action.")
    else if t !in s.tests then Fail(BadRequest, "Invalid pk - object does not exist.")
    else if SelectedAnswer(text).Fail? then Fail(BadRequest, SelectedAnswer(text).detail)
    else Ok(Record(s, r, t, SelectedAnswer(text).value, Grade(s, t, text)))
  }

  /** Where the source does not fail, it stores exactly what the corrected
      endpoint stores. */
  lemma SubmitAsWrittenAgreesWhenItSucceeds(s: Store, r: Requester, t: TestId, text: string, clientStudent: UserId)
    requires SubmitAnswerAsWritten(s, r, t, text, clientStudent).Ok?
    ensures SubmitAnswerAsWritten(s, r, t, text, clientStudent) == SubmitAnswer(s, r, t, text, clientStudent)
  {
    var g := GradeAsWritten(s, t, text);
    assert g.Some? && Grade(s, t, text) == g.value;
  }

  /** Submitting keeps the integrity of the database when the requester is
      a stored user. */
  lemma SubmitKeepsValid(s: Store, r: Requester, t: TestId, text: string, clientStudent: UserId)
    requires Valid(s) && r.SignedIn? && r.id in s.users
    requires SubmitAnswer(s, r, t, text, clientStudent).Ok?
    ensures Valid(SubmitAnswer(s, r, t, text, clientStudent).value.store)
  {
  }

  /** Grading reads only the answer options, so resubmitting the same text
      for the same test is graded the same way. */
  lemma ResubmissionGradedAlike(s: Store, r: Requester, t: TestId, text: string, clientStudent: UserId)
    requires SubmitAnswer(s, r, t, text, clientStudent).Ok?
    ensures var s2 := SubmitAnswer(s, r, t, text, clientStudent).value.store;
      Grade(s2, t, text) == Grade(s, t, text)
  {
    var s2 := SubmitAnswer(s, r, t, text, clientStudent).value.store;
    assert s2.options == s.options;
    assert CorrectOptions(s2, t) == CorrectOptions(s, t);
  }

  /** The discrepancy for every input: a student's answer to a test none of
      whose options is flagged correct is a server error as written, while
      the corrected endpoint stores it as incorrect. */
  lemma UnflaggedTestBreaksSubmission(s: Store, r: Requester, t: TestId, text: string, clientStudent: UserId)
    requires IsStudent(r) && t in s.tests && CorrectOptions(s, t) == {} && SelectedAnswer(text).Ok?
    ensures SubmitAnswerAsWritten(s, r, t, text, clientStudent) == Fail(ServerError, "A server error occurred.")
    ensures var fixed := SubmitAnswer(s, r, t, text, clientStudent);
      fixed.Ok? && !fixed.value.store.answers[fixed.value.id].isCorrect
  {
  }

  /** The smallest input that shows it: one student, one course with one
      material and one test, and no answer options yet. */
  lemma FreshTestCounterexample()
    ensures var student := SignedIn(0, {StudentGroup});
      var s := EmptyStore.(
        users := map[0 := User("student@example.com")],
        courses := map[0 := Course("Course", "Arithmetic", Some(0), 100)],
        materials := map[0 := Material("Material", "Sums", 0, None, Some(0))],
        tests := map[0 := Test("2 + 2?", 0, Some(0))]);
      && Valid(s)
      && SubmitAnswerAsWritten(s, student, 0, "4", 0).Fail?
      && SubmitAnswer(s, student, 0, "4", 0).Ok?
  {
    var s := EmptyStore.(
      users := map[0 := User("student@example.com")],
      courses := map[0 := Course("Course", "Arithmetic", Some(0), 100)],
      materials := map[0 := Material("Material", "Sums", 0, None, Some(0))],
      tests := map[0 := Test("2 + 2?", 0, Some(0))]);
    assert CorrectOptions(s, 0) == {};
    TrimmedIsFixed("4");
  }

  /** The grade compares the raw request text while the stored answer is
      the stripped one: the right answer sent with a trailing space is
      stored as the right answer and graded wrong. */
  lemma TrailingSpaceIsGradedWrong(s: Store, r: Requester, t: TestId, right: string)
    requires IsStudent(r) && t in s.tests
    requires FirstCorrectOption(s, t).Some? && s.options[FirstCorrectOption(s, t).value].answerText == right
    requires right != [] && !IsSpace(right[0]) && !IsSpace(right[|right| - 1]) && |right| <= 255
    requires '\0' !in right
    ensures var res := SubmitAnswer(s, r, t, right + " ", 0);
      && res.Ok?
      && res.value.store.answers[res.value.id] == StudentAnswer(r.id, t, right, false)
  {
    StripTrailingSpace(right);
    var m := FirstCorrectOption(s, t).value;
    forall o: nat | IsLeast(o, CorrectOptions(s, t)) ensures s.options[o].answerText != right + " " {
      assert o <= m && m <= o;
    }
  }
}

=== FILE: models.dfy ===
/** The persisted entities of learning_platform/models.py and users/models.py
    and the store that holds them: one map from primary key to row per table. */
module Models {
  import opened Common

  /** A platform user, identified by a unique e-mail address. Group
      membership is read only from the requester, so it is not stored here. */
  datatype User = User(email: string)

  /** `price` is the two-decimal `pay_amount_course`, counted in hundredths. */
  datatype Course = Course(
    title: string,
    description: string,
    owner: Option<UserId>,
    price: int)

  datatype Material = Material(
    title: string,
    description: string,
    course: CourseId,
    videoUrl: Option<string>,
    owner: Option<UserId>)

  datatype Test = Test(question: string, material: MaterialId, owner: Option<UserId>)

  /** Any number of options of one test may be flagged correct. */
  datatype AnswerOption = AnswerOption(
    test: TestId,
    answerText: string,
    isCorrect: bool,
    owner: Option<UserId>)

  datatype StudentAnswer = StudentAnswer(
    student: UserId,
    test: TestId,
    selectedAnswer: string,
    isCorrect: bool)

  /** Amount, checkout session, link and status are nullable columns. */
  datatype Payment = Payment(
    user: UserId,
    course: CourseId,
    amount: Option<int>,
    session: Option<string>,
    link: Option<string>,
    status: Option<string>)

  datatype Subscription = Subscription(user: UserId, course: CourseId, isSubscribed: bool)

  datatype Store = Store(
    users: map<UserId, User>,
    courses: map<CourseId, Course>,
    materials: map<MaterialId, Material>,
    tests: map<TestId, Test>,
    options: map<OptionId, AnswerOption>,
    answers: map<AnswerId, StudentAnswer>,
    payments: map<PaymentId, Payment>,
    subscriptions: map<SubscriptionId, Subscription>)

  /** A nullable foreign key to the user table is null or resolves. */
  predicate OwnerResolves(s: Store, owner: Option<UserId>)
  {
    owner.None? || owner.value in s.users
  }

  /** Every foreign key resolves to an existing row. */
  predicate ReferencesResolve(s: Store)
  {
    && (forall c :: c in s.courses ==> OwnerResolves(s, s.courses[c].owner))
    && (forall m :: m in s.materials ==>
          s.materials[m].course in s.courses && OwnerResolves(s, s.materials[m].owner))
    && (forall t :: t in s.tests ==>
          s.tests[t].material in s.materials && OwnerResolves(s, s.tests[t].owner))
    && (forall o :: o in s.options ==>
          s.options[o].test in s.tests && OwnerResolves(s, s.options[o].owner))
    && (forall a :: a in s.answers ==>
          s.answers[a].student in s.users && s.answers[a].test in s.tests)
    && (forall p :: p in s.payments ==>
          s.payments[p].user in s.users && s.payments[p].course in s.courses)
    && (forall k :: k in s.subscriptions ==>
          s.subscriptions[k].user in s.users && s.subscriptions[k].course in s.courses)
  }

  /** `unique_together = ('user', 'course')` on Subscription. */
  predicate UniqueSubscriptions(s: Store)
  {
    forall k1, k2 ::
      (k1 in s.subscriptions && k2 in s.subscriptions
       && s.subscriptions[k1].user == s.subscriptions[k2].user
       && s.subscriptions[k1].course == s.subscriptions[k2].course) ==> k1 == k2
  }

  /** `email = EmailField(unique=True)` on User. */
  predicate UniqueEmails(s: Store)
  {
    forall u1, u2 ::
      (u1 in s.users && u2 in s.users && s.users[u1].email == s.users[u2].email) ==> u1 == u2
  }

  /** The integrity the database guarantees between requests. */
  predicate Valid(s: Store)
  {
    ReferencesResolve(s) && UniqueSubscriptions(s) && UniqueEmails(s)
  }

  /** Ids of the subscription rows for one (user, course) pair. */
  function SubscriptionsOf(s: Store, user: UserId, course: CourseId): set<SubscriptionId>
  {
    set k | k in s.subscriptions &&
      s.subscriptions[k].user == user && s.subscriptions[k].course == course
  }

  /** The uniqueness constraint seen per pair: at most one row. */
  lemma UniquePairHasAtMostOneRow(s: Store, user: UserId, course: CourseId)
    requires UniqueSubscriptions(s)
    ensures |SubscriptionsOf(s, user, course)| <= 1
  {
    var ks := SubscriptionsOf(s, user, course);
    if ks != {} {
      var k :| k in ks;
      assert ks == {k};
    }
  }

  /** Ids of the courses for which `user` holds an `is_subscribed=True` row. */
  function SubscribedCourses(s: Store, user: UserId): (cs: set<CourseId>)
    ensures forall c :: c in cs <==>
      exists k :: k in s.subscriptions && s.subscriptions[k] == Subscription(user, c, true)
  {
    set k | k in s.subscriptions &&
      s.subscriptions[k].user == user && s.subscriptions[k].isSubscribed
      :: s.subscriptions[k].course
  }

  /** An endpoint's reply together with the store it leaves behind. */
  datatype Step<+T> = Step(reply: Reply<T>, store: Store)

  /** The empty database. */
  const EmptyStore: Store := Store(map[], map[], map[], map[], map[], map[], map[], map[])
}

=== FILE: notifications.dfy ===
/** The notification fan-out of `MaterialUpdateAPIView.perform_update`: after
    a material is saved, one e-mail task is queued per active subscription of
    the material's course. Queueing and sending are outside the model; the
    model produces the list of queued (recipient, title) messages. */
module Notifications {
  import opened Common
  import opened Models
  import opened Access
  import opened SetOps
  import opened Text
  import opened Fields

  /** One queued `send_update_notification(email, title)` task. */
  datatype Message = Message(email: string, title: string)

  /** Ids of the `is_subscribed=True` subscriptions of course `c`. */
  function ActiveSubscriptions(s: Store, c: CourseId): set<SubscriptionId>
  {
    set k | k in s.subscriptions && s.subscriptions[k].course == c && s.subscriptions[k].isSubscribed
  }

  /** The message for one subscription: its user's e-mail and the title. */
  function MessageFor(s: Store, k: SubscriptionId, title: string): Message
    requires k in s.subscriptions && s.subscriptions[k].user in s.users
  {
    Message(s.users[s.subscriptions[k].user].email, title)
  }

  /** The messages queued for course `c`, in subscription id order: exactly
      one per active subscription of the course, and no message for anyone
      else. */
  function Fanout(s: Store, c: CourseId, title: string): (msgs: seq<Message>)
    requires SubscribersResolve(s)
    ensures |msgs| == |ActiveSubscriptions(s, c)|
    ensures forall i :: 0 <= i < |msgs| ==>
      exists k :: k in ActiveSubscriptions(s, c) && msgs[i] == MessageFor(s, k, title)
    ensures forall k :: k in ActiveSubscriptions(s, c) ==> MessageFor(s, k, title) in msgs
  {
    var ids := SortedIds(ActiveSubscriptions(s, c));
    MessagesCoverIds(s, ids, ActiveSubscriptions(s, c), title);
    MessagesFor(s, ids, title)
  }

  /** One message per id, in order. */
  function MessagesFor(s: Store, ids: seq<SubscriptionId>, title: string): (msgs: seq<Message>)
    requires forall i :: 0 <= i < |ids| ==> ids[i] in s.subscriptions && s.subscriptions[ids[i]].user in s.users
    ensures |msgs| == |ids|
    ensures forall i :: 0 <= i < |ids| ==> msgs[i] == MessageFor(s, ids[i], title)
  {
    if ids == [] then [] else [MessageFor(s, ids[0], title)] + MessagesFor(s, ids[1..], title)
  }

  lemma MessagesCoverIds(s: Store, ids: seq<SubscriptionId>, active: set<SubscriptionId>, title: string)
    requires forall k :: k in ids <==> k in active
    requires forall k :: k in active ==> k in s.subscriptions && s.subscriptions[k].user in s.users
    ensures forall i :: 0 <= i < |ids| ==> ids[i] in s.subscriptions && s.subscriptions[ids[i]].user in s.users
    ensures var msgs := MessagesFor(s, ids, title);
      && (forall i :: 0 <= i < |msgs| ==> exists k :: k in active && msgs[i] == MessageFor(s, k, title))
      && (forall k :: k in active ==> MessageFor(s, k, title) in msgs)
  {
    assert forall i :: 0 <= i < |ids| ==> ids[i] in active;
    var msgs := MessagesFor(s, ids, title);
    forall i | 0 <= i < |msgs| ensures exists k :: k in active && msgs[i] == MessageFor(s, k, title) {
      assert ids[i] in active;
    }
    forall k | k in active ensures MessageFor(s, k, title) in msgs {
      var i :| 0 <= i < |ids| && ids[i] == k;
      assert msgs[i] == MessageFor(s, k, title);
    }
  }

  /** Every subscription's user resolves; part of the database integrity. */
  predicate SubscribersResolve(s: Store)
  {
    forall k :: k in s.subscriptions ==> s.subscriptions[k].user in s.users
  }

  /** Every queued message carries the material's title and the e-mail of a
      user holding an active subscription to the course. */
  lemma FanoutReachesOnlySubscribers(s: Store, c: CourseId, title: string)
    requires SubscribersResolve(s)
    ensures forall msg :: msg in Fanout(s, c, title) ==>
      && msg.title == title
      && exists u :: u in s.users && s.users[u].email == msg.email && IsActiveSubscriber(s, u, c)
  {
    var msgs := Fanout(s, c, title);
    forall msg | msg in msgs
      ensures msg.title == title
      ensures exists u :: u in s.users && s.users[u].email == msg.email && IsActiveSubscriber(s, u, c)
    {
      var i :| 0 <= i < |msgs| && msgs[i] == msg;
      var k :| k in ActiveSubscriptions(s, c) && msgs[i] == MessageFor(s, k, title);
      var u := s.subscriptions[k].user;
      assert s.subscriptions[k] == Subscription(u, c, true);
      assert IsActiveSubscriber(s, u, c);
      assert u in s.users && s.users[u].email == msg.email;
    }
  }

  predicate IsActiveSubscriber(s: Store, u: UserId, c: CourseId)
  {
    exists k :: k in s.subscriptions && s.subscriptions[k] == Subscription(u, c, true)
  }

  /** Two different active subscriptions of one course belong to users with
      different e-mails. */
  lemma DistinctSubscribersDistinctEmails(s: Store, c: CourseId, k1: SubscriptionId, k2: SubscriptionId)
    requires Valid(s)
    requires k1 in ActiveSubscriptions(s, c) && k2 in ActiveSubscriptions(s, c) && k1 != k2
    ensures s.users[s.subscriptions[k1].user].email != s.users[s.subscriptions[k2].user].email
  {
    var u1 := s.subscriptions[k1].user;
    var u2 := s.subscriptions[k2].user;
    assert u1 != u2 by {
      assert UniqueSubscriptions(s);
    }
    assert UniqueEmails(s);
  }

  /** Because e-mails and (user, course) subscriptions are unique, no
      recipient is queued twice for one update. */
  lemma FanoutHasNoDuplicates(s: Store, c: CourseId, title: string)
    requires Valid(s)
    ensures var msgs := Fanout(s, c, title);
      forall i, j :: 0 <= i < j < |msgs| ==> msgs[i] != msgs[j]
  {
    var ids := SortedIds(ActiveSubscriptions(s, c));
    var msgs := Fanout(s, c, title);
    forall i, j | 0 <= i < j < |msgs| ensures msgs[i] != msgs[j] {
      assert ids[i] in ActiveSubscriptions(s, c) && ids[j] in ActiveSubscriptions(s, c);
      DistinctSubscribersDistinctEmails(s, c, ids[i], ids[j]);
    }
  }

  /** The result of an update: the new store and the queued messages. */
  datatype Updated = Updated(store: Store, queued: seq<Message>)

  /** The material update endpoint: a signed-in teacher (any teacher; the
      owner is not consulted), an existing material, and new field values
      whose foreign keys resolve and whose title and description the
      serializer accepts. The cleaned material is saved, then the active
      subscribers of its (possibly new) course are notified with its (new,
      stripped) title. */
  function UpdateMaterial(s: Store, r: Requester, m: MaterialId, data: Material): (res: Reply<Updated>)
    requires Valid(s)
    ensures res.Ok? <==> (MaterialAllowed(MaterialUpdate, r) && m in s.materials &&
      data.course in s.courses && OwnerResolves(s, data.owner) && CleanMaterial(data).Ok?)
    ensures !MaterialAllowed(MaterialUpdate, r) ==> res.Fail? && res.kind == Denied
    ensures MaterialAllowed(MaterialUpdate, r) && m !in s.materials ==> res.Fail? && res.kind == NotFound
    ensures MaterialAllowed(MaterialUpdate, r) && m in s.materials &&
      !(data.course in s.courses && OwnerResolves(s, data.owner) && CleanMaterial(data).Ok?)
      ==> res.Fail? && res.kind == BadRequest
    ensures res.Ok? ==>
      res.value.store == s.(materials := s.materials[m := data.(title := Strip(data.title),
                                                               description := Strip(data.description))])
    ensures res.Ok? ==> Valid(res.value.store)
    ensures res.Ok? ==> |res.value.queued| == |ActiveSubscriptions(s, data.course)|
    ensures res.Ok? ==> forall k :: k in ActiveSubscriptions(s, data.course) ==>
      Message(s.users[s.subscriptions[k].user].email, Strip(data.title)) in res.value.queued
  {
    if !MaterialAllowed(MaterialUpdate, r) then Fail(Denied, "You do not have permission to perform this action.")
    else if m !in s.materials then Fail(NotFound, "No Material matches the given query.")
    else if data.course !in s.courses || !OwnerResolves(s, data.owner) then
      Fail(BadRequest, "Invalid pk - object does not exist.")
    else match CleanMaterial(data)
      case Fail(_, detail) => Fail(BadRequest, detail)
      case Ok(clean) => Ok(SaveAndNotify(s, m, clean))
  }

  /** Save the validated material over the stored one and queue the
      notifications for its course. */
  function SaveAndNotify(s: Store, m: MaterialId, clean: Material): (u: Updated)
    requires Valid(s) && m in s.materials && clean.course in s.courses && OwnerResolves(s, clean.owner)
    ensures u.store == s.(materials := s.materials[m := clean])
    ensures Valid(u.store)
    ensures |u.queued| == |ActiveSubscriptions(s, clean.course)|
    ensures forall k :: k in ActiveSubscriptions(s, clean.course) ==>
      Message(s.users[s.subscriptions[k].user].email, clean.title) in u.queued
  {
    var s' := s.(materials := s.materials[m := clean]);
    assert ActiveSubscriptions(s', clean.course) == ActiveSubscriptions(s, clean.course);
    Updated(s', Fanout(s', clean.course, clean.title))
  }
}

=== FILE: payments.dfy ===
/** Payments and subscription activation of users/views.py: creating a
    payment, polling the payment provider for its status, and turning a
    succeeded payment into an active subscription. The payment provider is
    an oracle: its answers are parameters. */
module Payments {
  import opened Common
  import opened Models
  import opened Permissions
  import opened Access
  import opened SetOps

  /** What one provider call returns: a value, the provider's
      invalid-request error, or any other failure. */
  datatype Provider<+T> = Found(value: T) | InvalidRequest(message: string) | ProviderError

  /** A checkout session as created for a new payment. */
  datatype Checkout = Checkout(sessionId: string, url: string)

  /** A payment intent as retrieved while polling. */
  datatype Intent = Intent(status: string, amountReceived: int, currency: string)

  /** The provider status that unlocks a subscription. */
  const Succeeded: string := "succeeded"

  /** The fields a client may send when creating a payment: the serializer
      lists `user`, `payment_session`, `payment_link` and `payment_status` as
      writable next to the required `pay_course`. `None` is a field left
      out of the request. */
  datatype PaymentData = PaymentData(user: Option<UserId>, course: CourseId,
                                     session: Option<string>, link: Option<string>,
                                     status: Option<string>)

  /** `PaymentCreateAPIView.perform_create`. The serializer first checks
      that the course and a client-sent user exist; then the row is saved
      with the requester as user and with the session, link and status the
      client sent, before the provider is called. A failing provider leaves
      that row behind without an amount and the request ends in a server
      error. On success the amount is the course's price and the session id
      and link are the provider's, replacing the client's; the client's
      status stays. */
  function CreatePayment(s: Store, r: Requester, data: PaymentData,
                         checkout: Provider<Checkout>): (res: Step<PaymentId>)
    ensures r.Anonymous? ==> res == Step(Fail(Denied, "Authentication credentials were not provided."), s)
    ensures r.SignedIn? && !IsStudent(r) ==>
      res == Step(Fail(Denied, "You do not have permission to perform this action."), s)
    ensures IsStudent(r) && !(data.course in s.courses && OwnerResolves(s, data.user)) ==>
      res.reply.Fail? && res.reply.kind == BadRequest && res.store == s
    ensures IsStudent(r) && data.course in s.courses && OwnerResolves(s, data.user) ==>
      var id := FreshId(s.payments.Keys);
      && res.store == s.(payments := res.store.payments)
      && res.store.payments.Keys == s.payments.Keys + {id}
      && id !in s.payments
      && (forall p :: p in s.payments ==> res.store.payments[p] == s.payments[p])
      && res.store.payments[id].user == r.id
      && res.store.payments[id].course == data.course
      && res.store.payments[id].status == data.status
      && (checkout.Found? <==> res.reply.Ok?)
      && (checkout.Found? ==>
            && res.reply.value == id
            && res.store.payments[id].amount == Some(s.courses[data.course].price)
            && res.store.payments[id].session == Some(checkout.value.sessionId)
            && res.store.payments[id].link == Some(checkout.value.url))
      && (!checkout.Found? ==>
            && res.reply.kind == ServerError
            && res.store.payments[id].amount.None?
            && res.store.payments[id].session == data.session
            && res.store.payments[id].link == data.link)
  {
    if r.Anonymous? then
      Step(Fail(Denied, "Authentication credentials were not provided."), s)
    else if !PaymentAllowed(PaymentCreate, r) then
      Step(Fail(Denied, "You do not have permission to perform this action."), s)
    else if data.course !in s.courses || !OwnerResolves(s, data.user) then
      Step(Fail(BadRequest, "Invalid pk - object does not exist."), s)
    else
      var id := FreshId(s.payments.Keys);
      var saved := Payment(r.id, data.course, None, data.session, data.link, data.status);
      match checkout
      case Found(session) =>
        var row := saved.(amount := Some(s.courses[data.course].price),
                          session := Some(session.sessionId), link := Some(session.url));
        Step(Ok(id), s.(payments := s.payments[id := row]))
      case _ =>
        Step(Fail(ServerError, "A server error occurred."), s.(payments := s.payments[id := saved]))
  }

  /** Creating a payment as a stored user keeps the database consistent,
      whether or not the provider answers: the row saved before the provider
      call names the requester and an existing course. */
  lemma CreatePaymentKeepsValid(s: Store, r: Requester, data: PaymentData, checkout: Provider<Checkout>)
    requires Valid(s) && r.SignedIn? && r.id in s.users
    ensures Valid(CreatePayment(s, r, data, checkout).store)
  {
  }

  /** The body of a successful status poll. The amount is the provider's
      integer amount; its division by 100 for display is not modelled. */
  datatype Polled = Polled(status: string, amountReceived: int, currency: string)

  /** `PaymentStatusAPIView.get`. The provider is asked for the checkout
      session of the stored session id, then for the payment intent that
      session names; only when both answer is the intent's status written to
      the payment. The provider's invalid-request error is a 400 carrying its
      message; any other failure, the unknown payment id included (the 404
      is raised inside the generic handler), is a 500. */
  function PollStatus(s: Store, r: Requester, id: PaymentId,
                      session: Option<string> -> Provider<Option<string>>,
                      intent: Option<string> -> Provider<Intent>): (res: Step<Polled>)
    ensures res.reply.Fail? ==> res.store == s
    ensures r.Anonymous? ==> res.reply.Fail? && res.reply.kind == Denied
    ensures r.SignedIn? && id !in s.payments ==> res.reply == Fail(ServerError, "An error occurred")
    ensures res.reply.Fail? && res.reply.kind == BadRequest ==>
      && r.SignedIn? && id in s.payments
      && (|| session(s.payments[id].session).InvalidRequest?
          || (session(s.payments[id].session).Found?
              && intent(session(s.payments[id].session).value).InvalidRequest?))
    ensures r.SignedIn? && id in s.payments ==>
      var found := session(s.payments[id].session);
      && (found.InvalidRequest? ==> res.reply == Fail(BadRequest, found.message))
      && (found.ProviderError? ==> res.reply == Fail(ServerError, "An error occurred"))
      && (found.Found? && intent(found.value).InvalidRequest? ==>
            res.reply == Fail(BadRequest, intent(found.value).message))
      && (found.Found? && intent(found.value).ProviderError? ==>
            res.reply == Fail(ServerError, "An error occurred"))
    ensures res.reply.Ok? <==>
      && r.SignedIn? && id in s.payments
      && session(s.payments[id].session).Found?
      && intent(session(s.payments[id].session).value).Found?
    ensures res.reply.Ok? ==>
      var i := intent(session(s.payments[id].session).value).value;
      && res.reply.value == Polled(i.status, i.amountReceived, i.currency)
      && res.store == s.(payments := s.payments[id := s.payments[id].(status := Some(i.status))])
  {
    if !PaymentAllowed(PaymentStatus, r) then
      Step(Fail(Denied, "Authentication credentials were not provided."), s)
    else if id !in s.payments then
      Step(Fail(ServerError, "An error occurred"), s)
    else
      var p := s.payments[id];
      match session(p.session)
      case InvalidRequest(msg) => Step(Fail(BadRequest, msg), s)
      case ProviderError => Step(Fail(ServerError, "An error occurred"), s)
      case Found(intentId) =>
        match intent(intentId)
        case InvalidRequest(msg) => Step(Fail(BadRequest, msg), s)
        case ProviderError => Step(Fail(ServerError, "An error occurred"), s)
        case Found(i) =>
          Step(Ok(Polled(i.status, i.amountReceived, i.currency)),
               s.(payments := s.payments[id := p.(status := Some(i.status))]))
  }

  /** Polling twice with the same provider answers gives the same reply and
      leaves the store as the first poll left it: the status written is the
      one the provider reports, and the session id it is looked up by is
      not touched. */
  lemma PollIsIdempotent(s: Store, r: Requester, id: PaymentId,
                         session: Option<string> -> Provider<Option<string>>,
                         intent: Option<string> -> Provider<Intent>)
    ensures var first := PollStatus(s, r, id, session, intent);
      PollStatus(first.store, r, id, session, intent) == first
  {
  }

  /** Turn on the subscription of `user` to `course`: the existing row with
      the lowest id is flipped to subscribed, or a subscribed row is created
      under a fresh id. */
  function Upsert(s: Store, user: UserId, course: CourseId): (r: Store)
    ensures r == s.(subscriptions := r.subscriptions)
    ensures exists k :: k in r.subscriptions && r.subscriptions[k] == Subscription(user, course, true)
  {
    var existing := SubscriptionsOf(s, user, course);
    if existing != {} then
      var k := MinOf(existing);
      var r := s.(subscriptions := s.subscriptions[k := s.subscriptions[k].(isSubscribed := true)]);
      assert r.subscriptions[k] == Subscription(user, course, true);
      r
    else
      var k := FreshId(s.subscriptions.Keys);
      var r := s.(subscriptions := s.subscriptions[k := Subscription(user, course, true)]);
      assert r.subscriptions[k] == Subscription(user, course, true);
      r
  }

  /** `SubscriptionHandlerAPIView.post`. */
  function Activate(s: Store, r: Requester, id: PaymentId): (res: Step<string>)
    ensures res.reply.Fail? ==> res.store == s
    ensures r.Anonymous? ==> res.reply.Fail? && res.reply.kind == Denied
    ensures r.SignedIn? && id !in s.payments ==> res.reply == Fail(NotFound, "Payment not found")
    ensures r.SignedIn? && id in s.payments && s.payments[id].status != Some(Succeeded) ==>
      res.reply == Fail(BadRequest, "Payment not successful")
    ensures res.reply.Ok? <==> r.SignedIn? && id in s.payments && s.payments[id].status == Some(Succeeded)
    ensures res.reply.Ok? ==> res.reply.value == "Subscription successful"
  {
    if !PaymentAllowed(SubscriptionHandler, r) then
      Step(Fail(Denied, "Authentication credentials were not provided."), s)
    else if id !in s.payments then
      Step(Fail(NotFound, "Payment not found"), s)
    else
      var p := s.payments[id];
      if p.status == Some(Succeeded) then
        Step(Ok("Subscription successful"), Upsert(s, p.user, p.course))
      else
        Step(Fail(BadRequest, "Payment not successful"), s)
  }

  /** After a successful activation the payment's user holds exactly one
      subscription row for the payment's course, and it is subscribed. */
  lemma ActivationLeavesOneActiveRow(s: Store, r: Requester, id: PaymentId)
    requires UniqueSubscriptions(s)
    requires Activate(s, r, id).reply.Ok?
    ensures var p := s.payments[id];
      var s' := Activate(s, r, id).store;
      exists k :: SubscriptionsOf(s', p.user, p.course) == {k} && s'.subscriptions[k].isSubscribed
  {
    var p := s.payments[id];
    var s' := Activate(s, r, id).store;
    var existing := SubscriptionsOf(s, p.user, p.course);
    if existing != {} {
      var k := MinOf(existing);
      UniquePairHasAtMostOneRow(s, p.user, p.course);
      assert existing == {k};
      assert SubscriptionsOf(s', p.user, p.course) == {k};
    } else {
      var k := FreshId(s.subscriptions.Keys);
      assert SubscriptionsOf(s', p.user, p.course) == {k};
    }
  }

  /** Activation only touches the row keyed by the payment's own user and
      course: every other subscription row, every other table, and in
      particular the requester's own subscriptions (when the requester is not
      the payer) are unchanged. */
  lemma ActivationFrame(s: Store, r: Requester, id: PaymentId)
    requires Activate(s, r, id).reply.Ok?
    ensures var p := s.payments[id];
      var s' := Activate(s, r, id).store;
      && s' == s.(subscriptions := s'.subscriptions)
      && (forall k :: k in s.subscriptions ==> k in s'.subscriptions)
      && (forall k ::
            (k in s.subscriptions
             && (s.subscriptions[k].user != p.user || s.subscriptions[k].course != p.course))
            ==> s'.subscriptions[k] == s.subscriptions[k])
      && (forall k :: k in s'.subscriptions && k !in s.subscriptions ==>
            s'.subscriptions[k] == Subscription(p.user, p.course, true))
  {
  }

  /** A second upsert of the same pair changes nothing. */
  lemma UpsertIsIdempotent(s: Store, user: UserId, course: CourseId)
    ensures Upsert(Upsert(s, user, course), user, course) == Upsert(s, user, course)
  {
    var s1 := Upsert(s, user, course);
    var existing := SubscriptionsOf(s, user, course);
    var k := if existing != {} then MinOf(existing) else FreshId(s.subscriptions.Keys);
    assert s1.subscriptions == s.subscriptions[k := Subscription(user, course, true)];
    assert k in SubscriptionsOf(s1, user, course);
    forall j | j in SubscriptionsOf(s1, user, course) ensures k <= j {
      if j != k { assert j in existing; }
    }
    assert MinOf(SubscriptionsOf(s1, user, course)) == k;
    assert s1.subscriptions[k := s1.subscriptions[k].(isSubscribed := true)] == s1.subscriptions;
  }

  /** Activation is idempotent: a second call on the same payment answers
      the same and leaves the same store. */
  lemma ActivationIsIdempotent(s: Store, r: Requester, id: PaymentId)
    ensures var first := Activate(s, r, id);
      Activate(first.store, r, id) == first
  {
    var first := Activate(s, r, id);
    if first.reply.Ok? {
      var p := s.payments[id];
      UpsertIsIdempotent(s, p.user, p.course);
      assert first.store.payments == s.payments;
    }
  }

  /** The upsert never inserts a second row for a pair, and it only inserts
      rows whose user and course exist. */
  lemma UpsertKeepsValid(s: Store, user: UserId, course: CourseId)
    requires Valid(s) && user in s.users && course in s.courses
    ensures Valid(Upsert(s, user, course))
  {
    var s' := Upsert(s, user, course);
    var existing := SubscriptionsOf(s, user, course);
    var n := if existing != {} then MinOf(existing) else FreshId(s.subscriptions.Keys);
    assert s'.subscriptions == s.subscriptions[n := Subscription(user, course, true)];
    forall k | k in s'.subscriptions
      ensures s'.subscriptions[k].user in s'.users && s'.subscriptions[k].course in s'.courses
    {
    }
    assert ReferencesResolve(s');
    forall k | k in s'.subscriptions && s'.subscriptions[k].user == user && s'.subscriptions[k].course == course
      ensures k == n
    {
      assert k == n || k in existing;
    }
  }

  /** Activation keeps the integrity of the database, the one-row-per-pair
      rule included. */
  lemma ActivationKeepsValid(s: Store, r: Requester, id: PaymentId)
    requires Valid(s)
    ensures Valid(Activate(s, r, id).store)
  {
    if Activate(s, r, id).reply.Ok? {
      var p := s.payments[id];
      UpsertKeepsValid(s, p.user, p.course);
    }
  }

  /** The outcome does not depend on who asks, as long as someone signed
      in: any signed-in user may activate anyone's payment. */
  lemma ActivationIgnoresRequester(s: Store, r1: Requester, r2: Requester, id: PaymentId)
    requires r1.SignedIn? && r2.SignedIn?
    ensures Activate(s, r1, id) == Activate(s, r2, id)
  {
  }
}

=== FILE: permissions.dfy ===
/** The two role permission classes of learning_platform/permissions.py and
    the way a view combines a list of permission classes. */
module Permissions {
  import opened Common

  /** `IsStudent.has_permission`: signed in and in the students' group. */
  predicate IsStudent(r: Requester)
  {
    r.IsAuthenticated() && r.InGroup(StudentGroup)
  }

  /** `IsTeacher.has_permission`: signed in and in the teachers' group. */
  predicate IsTeacher(r: Requester)
  {
    r.IsAuthenticated() && r.InGroup(TeacherGroup)
  }

  /** `IsTeacher.has_object_permission`: any member of the teachers' group
      may act on any object; anyone else only on an object it owns. */
  function TeacherObjectPermission(r: Requester, owner: Option<UserId>): (ok: bool)
    ensures r.InGroup(TeacherGroup) ==> ok
    ensures !r.InGroup(TeacherGroup) ==> (ok <==> r.SignedIn? && owner == Some(r.id))
  {
    if r.InGroup(TeacherGroup) then true else r.IsOwner(owner)
  }

  /** The role checks in terms of the requester's group memberships alone:
      each holds exactly for a signed-in member of its group, so the
      anonymous user passes neither and a member of both groups passes both. */
  lemma RoleChecksByGroup(r: Requester)
    ensures IsStudent(r) <==> (r.SignedIn? && StudentGroup in r.groups)
    ensures IsTeacher(r) <==> (r.SignedIn? && TeacherGroup in r.groups)
    ensures r.Anonymous? ==> !IsStudent(r) && !IsTeacher(r)
    ensures IsStudent(r) && IsTeacher(r) <==>
      (r.SignedIn? && {StudentGroup, TeacherGroup} <= r.groups)
  {
  }

  /** Neither role implies the other: membership of one group alone grants
      that role only, and since the two group names differ the single-group
      requesters exist for every user id. */
  lemma RolesAreIndependent(id: UserId, g: set<string>)
    ensures StudentGroup in g && TeacherGroup !in g ==>
      IsStudent(SignedIn(id, g)) && !IsTeacher(SignedIn(id, g))
    ensures TeacherGroup in g && StudentGroup !in g ==>
      IsTeacher(SignedIn(id, g)) && !IsStudent(SignedIn(id, g))
    ensures IsStudent(SignedIn(id, {StudentGroup})) && !IsTeacher(SignedIn(id, {StudentGroup}))
    ensures IsTeacher(SignedIn(id, {TeacherGroup})) && !IsStudent(SignedIn(id, {TeacherGroup}))
  {
    assert StudentGroup[0] != TeacherGroup[0];
  }

  /** One entry of a view's `permission_classes`. `StudentOrTeacher` is the
      composed class `IsStudent | IsTeacher`. */
  datatype Check = AllowAny | Authenticated | Student | Teacher | StudentOrTeacher

  function HasPermission(c: Check, r: Requester): bool
  {
    match c
    case AllowAny => true
    case Authenticated => r.IsAuthenticated()
    case Student => IsStudent(r)
    case Teacher => IsTeacher(r)
    case StudentOrTeacher => IsStudent(r) || IsTeacher(r)
  }

  /** Object-level check; the framework's base class allows every object,
      only `IsTeacher` overrides it. An OR-composed class asks each operand
      for both checks and accepts if either operand passes both. */
  function HasObjectPermission(c: Check, r: Requester, owner: Option<UserId>): bool
  {
    match c
    case Teacher => TeacherObjectPermission(r, owner)
    case StudentOrTeacher => IsStudent(r) || (IsTeacher(r) && TeacherObjectPermission(r, owner))
    case _ => true
  }

  /** A request passes a view's permission classes when every class allows
      it. The classes are kept as a set: their order only decides which
      refusal is reported first, and every refusal is the same `Denied`. */
  predicate AllPass(cs: set<Check>, r: Requester)
  {
    forall c :: c in cs ==> HasPermission(c, r)
  }

  /** The object-level check of a detail view, run after the request-level one. */
  predicate AllPassOnObject(cs: set<Check>, r: Requester, owner: Option<UserId>)
  {
    forall c :: c in cs ==> HasObjectPermission(c, r, owner)
  }

  /** No permission class ever refuses an object to a requester it admitted
      at request level: object ownership restricts nobody in this code base,
      because `IsTeacher` only admits teachers and lets teachers act on
      every object. */
  lemma ObjectCheckNeverNarrows(cs: set<Check>, r: Requester, owner: Option<UserId>)
    requires AllPass(cs, r)
    ensures AllPassOnObject(cs, r, owner)
  {
  }
}

=== FILE: scenarios.dfy ===
/** How payments, activation and material visibility compose across
    endpoints. */
module Scenarios {
  import opened Common
  import opened Models
  import opened Permissions
  import opened Visibility
  import opened Payments

  /** After a successful activation the payer, asking as a student or a
      teacher, sees every material of the paid course. */
  lemma ActivationUnlocksMaterials(s: Store, r: Requester, id: PaymentId, payer: Requester, m: MaterialId)
    requires Activate(s, r, id).reply.Ok?
    requires payer.SignedIn? && payer.id == s.payments[id].user
    requires IsStudent(payer) || IsTeacher(payer)
    requires m in s.materials && s.materials[m].course == s.payments[id].course
    ensures var s' := Activate(s, r, id).store;
      MaterialList(s', payer).Ok? && m in MaterialList(s', payer).value
  {
    var s' := Activate(s, r, id).store;
    var p := s.payments[id];
    assert s' == Upsert(s, p.user, p.course);
    assert IsSubscribed(s', payer.id, s'.materials[m].course);
  }

  /** The payment serializer lets the client write the payment status, so a
      student who sends `succeeded` when creating a payment can activate the
      subscription and read the course's materials although the provider
      only opened a checkout session. */
  lemma ClientWrittenStatusUnlocksCourse(s: Store, r: Requester, c: CourseId, session: Checkout, m: MaterialId)
    requires IsStudent(r) && c in s.courses
    requires m in s.materials && s.materials[m].course == c
    ensures var created := CreatePayment(s, r, PaymentData(None, c, None, None, Some(Succeeded)), Found(session));
      && created.reply.Ok?
      && var activated := Activate(created.store, r, created.reply.value);
      && activated.reply == Ok("Subscription successful")
      && MaterialList(activated.store, r).Ok?
      && m in MaterialList(activated.store, r).value
  {
    var created := CreatePayment(s, r, PaymentData(None, c, None, None, Some(Succeeded)), Found(session));
    var id := created.reply.value;
    assert created.store.materials == s.materials;
    ActivationUnlocksMaterials(created.store, r, id, r, m);
  }
}

=== FILE: setops.dfy ===
/** Finite sets of row ids: least and greatest element, the next
    auto-increment id, and the ascending enumeration a database uses when a
    queryset is ordered by primary key. */
module SetOps {

  predicate IsLeast(m: nat, s: set<nat>) { m in s && forall y :: y in s ==> m <= y }

  predicate IsGreatest(m: nat, s: set<nat>) { m in s && forall y :: y in s ==> y <= m }

  lemma {:induction false} LeastExists(s: set<nat>)
    requires s != {}
    ensures exists m :: IsLeast(m, s)
    decreases |s|
  {
    var x :| x in s;
    if s == {x} {
      assert IsLeast(x, s);
    } else {
      var rest := s - {x};
      LeastExists(rest);
      var m :| IsLeast(m, rest);
      var w := if x < m then x else m;
      forall y | y in s ensures w <= y {
        if y != x { assert y in rest; }
      }
      assert IsLeast(w, s);
    }
  }

  lemma {:induction false} GreatestExists(s: set<nat>)
    requires s != {}
    ensures exists m :: IsGreatest(m, s)
    decreases |s|
  {
    var x :| x in s;
    if s == {x} {
      assert IsGreatest(x, s);
    } else {
      var rest := s - {x};
      GreatestExists(rest);
      var m :| IsGreatest(m, rest);
      var w := if x < m then m else x;
      forall y | y in s ensures y <= w {
        if y != x { assert y in rest; }
      }
      assert IsGreatest(w, s);
    }
  }

  /** The smallest id of a non-empty set: what `.first()` picks on a
      queryset without an explicit ordering. */
  function MinOf(s: set<nat>): (m: nat)
    requires s != {}
    ensures IsLeast(m, s)
  {
    LeastExists(s);
    var m :| IsLeast(m, s); m
  }

  function MaxOf(s: set<nat>): (m: nat)
    requires s != {}
    ensures IsGreatest(m, s)
  {
    GreatestExists(s);
    var m :| IsGreatest(m, s); m
  }

  /** The id given to a new row: one above every id in use, so no row uses
      it. The database's sequence may hand out a different fresh id (it never
      reuses the id of a deleted row); only freshness is relied on. */
  function FreshId(used: set<nat>): (r: nat)
    ensures r !in used
    ensures forall k :: k in used ==> k < r
  {
    if used == {} then 0 else MaxOf(used) + 1
  }

  predicate StrictlyIncreasing(xs: seq<nat>)
  {
    forall i, j :: 0 <= i < j < |xs| ==> xs[i] < xs[j]
  }

  /** The ids of `s` in ascending order, each exactly once. */
  function SortedIds(s: set<nat>): (r: seq<nat>)
    ensures StrictlyIncreasing(r)
    ensures forall x :: x in r <==> x in s
    ensures |r| == |s|
    decreases |s|
  {
    if s == {} then []
    else
      var m := MinOf(s);
      var rest := SortedIds(s - {m});
      assert forall x :: x in rest ==> m < x;
      [m] + rest
  }
}

=== FILE: text.dfy ===
/** Whitespace as Python's `str` methods and the `\s` pattern see it, and
    `str.strip`, which the serializers' character fields apply to input. */
module Text {

  /** Unicode whitespace: the characters for which `str.isspace` holds. */
  predicate IsSpace(c: char)
  {
    || ('\t' <= c <= '\r')
    || ('\U{1c}' <= c <= '\U{1f}')
    || c == ' ' || c == '\U{85}' || c == '\U{a0}' || c == '\U{1680}'
    || ('\U{2000}' <= c <= '\U{200a}')
    || c == '\U{2028}' || c == '\U{2029}' || c == '\U{202f}' || c == '\U{205f}' || c == '\U{3000}'
  }

  /** Position of the first non-whitespace character at or after `i`. */
  function SkipSpaces(s: string, i: nat): (j: nat)
    requires i <= |s|
    ensures i <= j <= |s|
    ensures j == |s| || !IsSpace(s[j])
    ensures forall k :: i <= k < j ==> IsSpace(s[k])
    decreases |s| - i
  {
    if i == |s| || !IsSpace(s[i]) then i else SkipSpaces(s, i + 1)
  }

  /** One past the last non-whitespace character of `s[lo..j]`, or `lo`. */
  function TrimEnd(s: string, lo: nat, j: nat): (e: nat)
    requires lo <= j <= |s|
    ensures lo <= e <= j
    ensures e == lo || !IsSpace(s[e - 1])
    ensures forall k :: e <= k < j ==> IsSpace(s[k])
    decreases j
  {
    if j == lo || !IsSpace(s[j - 1]) then j else TrimEnd(s, lo, j - 1)
  }

  /** `str.strip()`: `s` without its leading and trailing whitespace. */
  function Strip(s: string): (r: string)
    ensures exists a, b ::
      (&& 0 <= a <= b <= |s| && r == s[a..b]
       && (forall k :: 0 <= k < a ==> IsSpace(s[k]))
       && (forall k :: b <= k < |s| ==> IsSpace(s[k])))
    ensures r != [] ==> !IsSpace(r[0]) && !IsSpace(r[|r| - 1])
    ensures r == [] <==> forall k :: 0 <= k < |s| ==> IsSpace(s[k])
  {
    var a := SkipSpaces(s, 0);
    var b := TrimEnd(s, a, |s|);
    s[a..b]
  }

  /** Text that neither starts nor ends with whitespace is its own strip. */
  lemma TrimmedIsFixed(s: string)
    requires s != [] ==> !IsSpace(s[0]) && !IsSpace(s[|s| - 1])
    ensures Strip(s) == s
  {
    if s != [] {
      assert SkipSpaces(s, 0) == 0;
      assert TrimEnd(s, 0, |s|) == |s|;
      assert s[0..|s|] == s;
    }
  }

  /** Stripping twice is stripping once. */
  lemma StripIsIdempotent(s: string)
    ensures Strip(Strip(s)) == Strip(s)
  {
    TrimmedIsFixed(Strip(s));
  }

  /** Stripping removes a trailing blank from trimmed text. */
  lemma StripTrailingSpace(s: string)
    requires s != [] && !IsSpace(s[0]) && !IsSpace(s[|s| - 1])
    ensures Strip(s + " ") == s
  {
    var t := s + " ";
    assert SkipSpaces(t, 0) == 0;
    assert TrimEnd(t, 0, |t|) == TrimEnd(t, 0, |s|) == |s|;
    assert t[0..|s|] == s;
  }
}

=== FILE: validator.dfy ===
/** `NoExternalLinksValidator` of learning_platform/validators.py: find every
    match of the pattern `https?://[^\s]+` the way a left-to-right,
    non-overlapping regular-expression scan finds them, and reject the text
    when one of the matches does not contain the literal `youtube.com`. */
module LinkValidator {
  import opened Common
  import opened Text

  const Http: string := "http://"
  const Https: string := "https://"
  const AllowedHost: string := "youtube.com"
  const Rejection: string := "Материалы не должны содержать ссылки на сторонние ресурсы, кроме youtube.com."

  /** `p` occurs in `s` at position `i`. */
  predicate HasAt(s: string, i: int, p: string)
  {
    0 <= i && i + |p| <= |s| && s[i..i + |p|] == p
  }

  /** `t` contains `p` as a contiguous substring (Python's `in` on strings). */
  predicate Contains(t: string, p: string)
  {
    exists k :: 0 <= k <= |t| && HasAt(t, k, p)
  }

  /** Length of the scheme `https?://` at position `i`, or 0 when there is
      none. The optional `s` is tried first, and when `https://` is not
      there the only alternative left is `http://`. */
  function SchemeLength(s: string, i: int): (n: nat)
    ensures n == 8 <==> HasAt(s, i, Https)
    ensures n == 7 <==> HasAt(s, i, Http) && !HasAt(s, i, Https)
    ensures n == 0 <==> !HasAt(s, i, Http) && !HasAt(s, i, Https)
  {
    if HasAt(s, i, Https) then 8 else if HasAt(s, i, Http) then 7 else 0
  }

  /** A match of the pattern starts at `i`: the scheme is there and at least
      one non-whitespace character follows it. */
  predicate UrlStartsAt(s: string, i: int)
  {
    && 0 <= i < |s|
    && SchemeLength(s, i) > 0
    && i + SchemeLength(s, i) < |s|
    && !IsSpace(s[i + SchemeLength(s, i)])
  }

  /** No whitespace in `s[j..a]`. */
  predicate NoSpaceIn(s: string, j: int, a: int)
    requires 0 <= j <= a <= |s|
  {
    forall k :: j <= k < a ==> !IsSpace(s[k])
  }

  /** Where a match starting at `i` ends: `[^\s]+` is greedy, so at the next
      whitespace character or at the end of the text. */
  function RunEnd(s: string, i: int): (e: nat)
    requires 0 <= i <= |s|
    ensures i <= e <= |s|
    ensures e == |s| || IsSpace(s[e])
    ensures NoSpaceIn(s, i, e)
    decreases |s| - i
  {
    if i == |s| || IsSpace(s[i]) then i else RunEnd(s, i + 1)
  }

  /** The bounds `[start, end)` of one match. */
  datatype Span = Span(start: nat, end: nat)

  /** The matches `re.findall` returns when scanning from `i`: a failed
      attempt moves on by one character, a match resumes the scan where it
      ended. */
  function FindAll(s: string, i: nat): (r: seq<Span>)
    requires i <= |s|
    ensures forall sp :: sp in r ==> i <= sp.start < sp.end <= |s|
    ensures forall k, l :: 0 <= k < l < |r| ==> r[k].end <= r[l].start
    decreases |s| - i
  {
    if i == |s| then []
    else if UrlStartsAt(s, i) then
      var e := RunEnd(s, i);
      [Span(i, e)] + FindAll(s, e)
    else FindAll(s, i + 1)
  }

  /** The declarative meaning of a match: the pattern matches at `a`, and no
      earlier match attempt could have swallowed `a`, because every earlier
      match start is separated from `a` by whitespace. */
  predicate IsMatchStart(s: string, a: int)
  {
    && UrlStartsAt(s, a)
    && forall j :: 0 <= j < a && NoSpaceIn(s, j, a) ==> !UrlStartsAt(s, j)
  }

  /** What a scan that has reached `i` may assume: no match start before `i`
      reaches across to a match start at or after `i`. */
  predicate ScanInv(s: string, i: int)
  {
    forall j, a :: 0 <= j < i <= a < |s| && UrlStartsAt(s, a) && NoSpaceIn(s, j, a) ==> !UrlStartsAt(s, j)
  }

  /** The scheme's first letter is not whitespace, so a match is never
      empty. */
  lemma UrlStartsWithH(s: string, i: int)
    requires UrlStartsAt(s, i)
    ensures s[i] == 'h' && !IsSpace(s[i])
  {
    if SchemeLength(s, i) == 8 {
      assert s[i..i + 8][0] == Https[0];
    } else {
      assert s[i..i + 7][0] == Http[0];
    }
  }

  /** A scan that resumes at whitespace or at the end of the text cannot
      miss anything: no match start before that point reaches past it. */
  lemma WhitespaceStopsScan(s: string, e: int)
    requires 0 <= e <= |s| && (e == |s| || IsSpace(s[e]))
    ensures ScanInv(s, e)
  {
    forall j, a | 0 <= j < e <= a < |s| && UrlStartsAt(s, a)
      ensures !NoSpaceIn(s, j, a)
    {
      UrlStartsWithH(s, a);
      assert j <= e < a && IsSpace(s[e]);
    }
  }

  /** A failed match attempt at `i` moves the scan on without losing
      anything. */
  lemma SkipKeepsScanInv(s: string, i: int)
    requires 0 <= i < |s| && ScanInv(s, i) && !UrlStartsAt(s, i)
    ensures ScanInv(s, i + 1)
  {
  }

  /** The scan's spans from `i`, declaratively. */
  predicate FoundFrom(s: string, i: int, sp: Span)
  {
    i <= sp.start && IsMatchStart(s, sp.start) && sp.end == RunEnd(s, sp.start)
  }

  /** A match at `i` followed by the declarative matches from its end are
      the declarative matches from `i`. */
  lemma MatchThenRest(s: string, i: nat, rest: seq<Span>)
    requires i < |s| && ScanInv(s, i) && UrlStartsAt(s, i)
    requires forall sp :: sp in rest <==> FoundFrom(s, RunEnd(s, i), sp)
    ensures forall sp :: sp in [Span(i, RunEnd(s, i))] + rest <==> FoundFrom(s, i, sp)
  {
    var e := RunEnd(s, i);
    UrlStartsWithH(s, i);
    forall a | i < a < e ensures !IsMatchStart(s, a) {
      assert NoSpaceIn(s, i, a);
    }
    assert IsMatchStart(s, i);
    forall sp: Span | FoundFrom(s, i, sp) ensures sp in [Span(i, e)] + rest {
      if sp.start < e {
        assert sp == Span(i, e);
      } else {
        assert sp in rest;
      }
    }
  }

  /** The scan finds exactly the declarative matches. */
  lemma {:induction false} FindAllExact(s: string, i: nat)
    requires i <= |s| && ScanInv(s, i)
    ensures forall sp :: sp in FindAll(s, i) <==> FoundFrom(s, i, sp)
    decreases |s| - i
  {
    if i == |s| {
    } else if UrlStartsAt(s, i) {
      var e := RunEnd(s, i);
      WhitespaceStopsScan(s, e);
      FindAllExact(s, e);
      MatchThenRest(s, i, FindAll(s, e));
    } else {
      SkipKeepsScanInv(s, i);
      FindAllExact(s, i + 1);
      forall sp ensures FoundFrom(s, i, sp) <==> FoundFrom(s, i + 1, sp) {
        if sp.start == i {
          assert !IsMatchStart(s, i);
        }
      }
    }
  }

  /** Every match `re.findall` returns on the whole text, by position. */
  function Matches(s: string): (r: seq<Span>)
    ensures forall sp :: sp in r <==> IsMatchStart(s, sp.start) && sp.end == RunEnd(s, sp.start)
  {
    FindAllExact(s, 0);
    FindAll(s, 0)
  }

  /** Every span in `spans` names a text containing the allowed host. */
  predicate AllAllowed(s: string, spans: seq<Span>)
    requires forall sp :: sp in spans ==> sp.start <= sp.end <= |s|
  {
    forall k :: 0 <= k < |spans| ==> Contains(s[spans[k].start..spans[k].end], AllowedHost)
  }

  /** Checking the spans of the scan is checking every declarative match. */
  lemma AllowedMeansEveryMatch(s: string)
    ensures AllAllowed(s, Matches(s)) <==>
      forall a :: IsMatchStart(s, a) ==> Contains(s[a..RunEnd(s, a)], AllowedHost)
  {
    var spans := Matches(s);
    if AllAllowed(s, spans) {
      forall a | IsMatchStart(s, a) ensures Contains(s[a..RunEnd(s, a)], AllowedHost) {
        var sp := Span(a, RunEnd(s, a));
        assert sp in spans;
        var k :| 0 <= k < |spans| && spans[k] == sp;
      }
    } else {
      var k :| 0 <= k < |spans| && !Contains(s[spans[k].start..spans[k].end], AllowedHost);
      assert spans[k] in spans;
    }
  }

  /** `NoExternalLinksValidator.__call__`: the value itself when every link
      is on youtube.com, otherwise a validation error (a 400 reply). */
  function Validate(value: string): (res: Reply<string>)
    ensures res.Ok? ==> res.value == value
    ensures res.Fail? ==> res == Fail(BadRequest, Rejection)
    ensures res.Fail? <==>
      exists a :: IsMatchStart(value, a) && !Contains(value[a..RunEnd(value, a)], AllowedHost)
  {
    AllowedMeansEveryMatch(value);
    if AllAllowed(value, Matches(value)) then Ok(value) else Fail(BadRequest, Rejection)
  }

  /** Text without any `http://` or `https://` followed by a non-whitespace
      character is accepted as it is. */
  lemma NoLinkIsAccepted(s: string)
    requires forall i :: 0 <= i < |s| ==> !UrlStartsAt(s, i)
    ensures Validate(s) == Ok(s)
  {
  }

  /** A successful validation returns its input, so validating again gives
      the same answer. */
  lemma ValidationIsIdempotent(s: string)
    requires Validate(s).Ok?
    ensures Validate(Validate(s).value) == Validate(s)
  {
  }

  /** A match reaches up to the next whitespace and never across it. */
  lemma MatchesStopAtWhitespace(s: string, sp: Span)
    requires sp in Matches(s)
    ensures sp.start < sp.end <= |s|
    ensures NoSpaceIn(s, sp.start, sp.end)
    ensures sp.end == |s| || IsSpace(s[sp.end])
  {
    FindAllExact(s, 0);
  }

  /** Two different matches are separated by whitespace, so a word without
      whitespace yields at most one match. */
  lemma DistinctMatchesAreSeparated(s: string, x: Span, y: Span)
    requires x in Matches(s) && y in Matches(s) && x.start < y.start
    ensures x.end <= y.start
    ensures exists k :: x.start <= k < y.start && IsSpace(s[k])
  {
    FindAllExact(s, 0);
    assert UrlStartsAt(s, x.start);
    assert !NoSpaceIn(s, x.start, y.start);
    var k :| x.start <= k < y.start && IsSpace(s[k]);
    assert NoSpaceIn(s, x.start, x.end);
  }

  /** A bare scheme followed by whitespace or by the end of the text is not
      the start of a match. */
  lemma BareSchemeIsNoMatch(s: string, i: int)
    requires HasAt(s, i, Http) || HasAt(s, i, Https)
    requires var n := SchemeLength(s, i); i + n == |s| || IsSpace(s[i + n])
    ensures !UrlStartsAt(s, i)
    ensures forall sp :: sp in Matches(s) ==> sp.start != i
  {
  }

  /** A text that is one whitespace-free link is judged by that link
      alone. */
  lemma OneLinkText(scheme: string, w: string)
    requires scheme == Http || scheme == Https
    requires |w| > 0 && forall k :: 0 <= k < |w| ==> !IsSpace(w[k])
    ensures Validate(scheme + w).Fail? <==> !Contains(scheme + w, AllowedHost)
  {
    var s := scheme + w;
    assert s[0..|scheme|] == scheme;
    assert s[|scheme|] == w[0];
    if scheme == Http {
      assert s[4] == ':';
      assert !HasAt(s, 0, Https) by { assert Https[4] == 's'; }
    }
    assert SchemeLength(s, 0) == |scheme|;
    assert UrlStartsAt(s, 0);
    assert IsMatchStart(s, 0);
    forall k | 0 <= k < |s| ensures !IsSpace(s[k]) {
      if k >= |scheme| {
        assert s[k] == w[k - |scheme|];
      }
    }
    assert RunEnd(s, 0) == |s|;
    assert s[0..|s|] == s;
    forall a | 0 < a < |s| ensures !IsMatchStart(s, a) {
      assert NoSpaceIn(s, 0, a);
    }
  }

  /** The host test is plain substring containment: `youtube.com` anywhere
      in the link, its path or query string included, lets it through. */
  lemma HostAnywhereInLinkPasses(scheme: string, w: string)
    requires scheme == Http || scheme == Https
    requires |w| > 0 && forall k :: 0 <= k < |w| ==> !IsSpace(w[k])
    requires Contains(w, AllowedHost)
    ensures Validate(scheme + w) == Ok(scheme + w)
  {
    OneLinkText(scheme, w);
    var k :| 0 <= k <= |w| && HasAt(w, k, AllowedHost);
    assert (scheme + w)[|scheme| + k..|scheme| + k + |AllowedHost|] == w[k..k + |AllowedHost|];
    assert HasAt(scheme + w, |scheme| + k, AllowedHost);
  }

  /** The dot of `youtube.com` is literal: a link without any dot is
      rejected, whatever host-like letters it holds. */
  lemma DotlessLinkIsRejected(scheme: string, w: string)
    requires scheme == Http || scheme == Https
    requires |w| > 0 && forall k :: 0 <= k < |w| ==> !IsSpace(w[k]) && w[k] != '.'
    ensures Validate(scheme + w) == Fail(BadRequest, Rejection)
  {
    OneLinkText(scheme, w);
    var s := scheme + w;
    forall k | 0 <= k && k + |AllowedHost| <= |s| ensures !HasAt(s, k, AllowedHost) {
      if k + 7 < |scheme| {
        assert s[k + 7] == scheme[k + 7];
      } else {
        assert s[k + 7] == w[k + 7 - |scheme|];
      }
      assert s[k..k + |AllowedHost|][7] != AllowedHost[7];
    }
  }

  /** `http://youtubeXcom` is rejected. */
  lemma YoutubeWithoutDotIsRejected()
    ensures Validate(Http + "youtubeXcom") == Fail(BadRequest, Rejection)
  {
    var w := "youtubeXcom";
    forall k | 0 <= k < |w| ensures !IsSpace(w[k]) && w[k] != '.' {
      assert 'A' <= w[k] <= 'z';
    }
    DotlessLinkIsRejected(Http, w);
  }
}

=== FILE: visibility.dfy ===
/** Subscription-gated visibility: the querysets of `MaterialListAPIView`,
    `TestViewSet`, `StudentAnswerViewSet` and `CheckAnswersView`. */
module Visibility {
  import opened Common
  import opened Models
  import opened Permissions
  import opened Access

  /** The `material_id` query parameter: absent or empty, a text that parses
      as an integer, or a text that does not. */
  datatype IdParam = Missing | Given(n: int) | Malformed

  predicate IsSubscribed(s: Store, user: UserId, c: CourseId)
  {
    exists k :: k in s.subscriptions && s.subscriptions[k] == Subscription(user, c, true)
  }

  /** `MaterialListAPIView.get_queryset`: the union of the materials of the
      courses the user is subscribed to and the materials the user owns; a
      database union, so without duplicates. The anonymous user is refused
      rather than given an empty list. */
  function MaterialQueryset(s: Store, r: Requester): (res: Reply<set<MaterialId>>)
    ensures r.Anonymous? ==> res.Fail? && res.kind == Denied
    ensures r.SignedIn? ==> res.Ok? && forall m :: m in res.value <==>
      (m in s.materials &&
        (IsSubscribed(s, r.id, s.materials[m].course) || s.materials[m].owner == Some(r.id)))
  {
    if r.SignedIn? then
      var subscribed := SubscribedCourses(s, r.id);
      var bySubscription := set m | m in s.materials && s.materials[m].course in subscribed;
      var owned := set m | m in s.materials && s.materials[m].owner == Some(r.id);
      Ok(bySubscription + owned)
    else
      Fail(Denied, "Authentication is required to access this resource.")
  }

  /** The material list endpoint: `IsStudent | IsTeacher` is checked before
      the queryset is built, so a signed-in user in neither group is refused
      too. */
  function MaterialList(s: Store, r: Requester): (res: Reply<set<MaterialId>>)
    ensures res.Ok? <==> IsStudent(r) || IsTeacher(r)
    ensures res.Ok? ==> res == MaterialQueryset(s, r)
  {
    if MaterialAllowed(Access.MaterialList, r) then MaterialQueryset(s, r)
    else Fail(Denied, "You do not have permission to perform this action.")
  }

  /** A material of a course the user neither subscribes to nor owns the
      material of is never listed for that user. */
  lemma UnsubscribedMaterialHidden(s: Store, r: Requester, m: MaterialId)
    requires r.SignedIn? && m in s.materials
    requires !IsSubscribed(s, r.id, s.materials[m].course)
    requires s.materials[m].owner != Some(r.id)
    ensures MaterialList(s, r).Ok? ==> m !in MaterialList(s, r).value
  {
  }

  /** Tests before the `material_id` filter: a teachers'-group member sees
      the tests on materials it owns, any other signed-in user the tests on
      materials of subscribed courses, and the anonymous user every test. */
  function VisibleTests(s: Store, r: Requester): (ts: set<TestId>)
    ensures ts <= s.tests.Keys
    ensures r.Anonymous? ==> ts == s.tests.Keys
    ensures r.SignedIn? && r.InGroup(TeacherGroup) ==> forall t :: t in ts <==>
      (t in s.tests && s.tests[t].material in s.materials &&
        s.materials[s.tests[t].material].owner == Some(r.id))
    ensures r.SignedIn? && !r.InGroup(TeacherGroup) ==> forall t :: t in ts <==>
      (t in s.tests && s.tests[t].material in s.materials &&
        IsSubscribed(s, r.id, s.materials[s.tests[t].material].course))
  {
    if r.Anonymous? then s.tests.Keys
    else if r.InGroup(TeacherGroup) then
      set t | t in s.tests && s.tests[t].material in s.materials &&
        s.materials[s.tests[t].material].owner == Some(r.id)
    else
      var subscribed := SubscribedCourses(s, r.id);
      var materialIds := set m | m in s.materials && s.materials[m].course in subscribed;
      set t | t in s.tests && s.tests[t].material in materialIds
  }

  /** `TestViewSet.get_queryset`: the visibility filter, then the optional
      `material_id` filter. A text that is not an integer makes the database
      lookup raise, which surfaces as a server error. */
  function TestQueryset(s: Store, r: Requester, materialId: IdParam): (res: Reply<set<TestId>>)
    ensures materialId.Malformed? <==> res.Fail?
    ensures res.Fail? ==> res.kind == ServerError
    ensures materialId.Missing? ==> res == Ok(VisibleTests(s, r))
    ensures materialId.Given? ==> res.Ok? && forall t :: t in res.value <==>
      (t in VisibleTests(s, r) && s.tests[t].material == materialId.n)
  {
    var visible := VisibleTests(s, r);
    match materialId
    case Missing => Ok(visible)
    case Given(n) => Ok(set t | t in visible && s.tests[t].material == n)
    case Malformed => Fail(ServerError, "Field 'id' expected a number.")
  }

  /** The `material_id` filter is applied after visibility and only narrows:
      guessing a material id never reveals a test that is otherwise hidden. */
  lemma MaterialFilterOnlyNarrows(s: Store, r: Requester, n: int)
    ensures TestQueryset(s, r, Given(n)).value <= TestQueryset(s, r, Missing).value
  {
  }

  /** The test list endpoint: `IsStudent | IsTeacher`, then the queryset. */
  function TestList(s: Store, r: Requester, materialId: IdParam): (res: Reply<set<TestId>>)
    ensures !(IsStudent(r) || IsTeacher(r)) ==> res.Fail? && res.kind == Denied
    ensures IsStudent(r) || IsTeacher(r) ==> res == TestQueryset(s, r, materialId)
  {
    if TestAllowed(Get, true, r) then TestQueryset(s, r, materialId)
    else Fail(Denied, "You do not have permission to perform this action.")
  }

  /** The test detail endpoint: no permission class, and the object is
      looked up in the same queryset. */
  function TestRetrieve(s: Store, r: Requester, materialId: IdParam, t: TestId): (res: Reply<Test>)
    ensures res.Ok? <==> TestQueryset(s, r, materialId).Ok? && t in TestQueryset(s, r, materialId).value
    ensures res.Ok? ==> t in s.tests && res.value == s.tests[t]
  {
    var q := TestQueryset(s, r, materialId);
    if q.Fail? then Fail(q.kind, q.detail)
    else if t in q.value then Ok(s.tests[t])
    else Fail(NotFound, "No Test matches the given query.")
  }

  /** Because the anonymous queryset is left unfiltered and retrieval needs
      no permission, the anonymous user can read every test by id. */
  lemma AnonymousRetrievesEveryTest(s: Store, t: TestId)
    requires t in s.tests
    ensures TestRetrieve(s, Anonymous, Missing, t) == Ok(s.tests[t])
  {
  }

  /** `StudentAnswerViewSet` listing: any signed-in user, and every answer of
      every student, students included. */
  function AnswerList(s: Store, r: Requester): (res: Reply<set<AnswerId>>)
    ensures res.Ok? <==> r.SignedIn?
    ensures res.Ok? ==> res.value == s.answers.Keys
  {
    if StudentAnswerAllowed(Get, r) then Ok(s.answers.Keys)
    else Fail(Denied, "Authentication credentials were not provided.")
  }

  /** The tests of one material. */
  function TestsOfMaterial(s: Store, m: MaterialId): set<TestId>
  {
    set t | t in s.tests && s.tests[t].material == m
  }

  /** `CheckAnswersView.get`: the material id is required (400), must name a
      material (404), then a student sees its own answers to the material's
      tests, a teacher all answers to them, and anyone else is refused. The
      students' group is consulted first. */
  function CheckAnswers(s: Store, r: Requester, materialId: IdParam): (res: Reply<set<AnswerId>>)
    ensures r.Anonymous? ==> res.Fail? && res.kind == Denied
    ensures r.SignedIn? && materialId.Missing? ==> res == Fail(BadRequest, "material_id is required.")
    ensures r.SignedIn? && materialId.Malformed? ==> res.Fail? && res.kind == NotFound
    ensures r.SignedIn? && materialId.Given? && !(materialId.n >= 0 && materialId.n as nat in s.materials)
      ==> res.Fail? && res.kind == NotFound
    ensures res.Ok? ==> r.SignedIn? && materialId.Given? && materialId.n >= 0 && materialId.n as nat in s.materials
    ensures res.Ok? && r.InGroup(StudentGroup) ==> forall a :: a in res.value <==>
      (a in s.answers && s.answers[a].student == r.id &&
        s.answers[a].test in s.tests && s.tests[s.answers[a].test].material == materialId.n)
    ensures res.Ok? && !r.InGroup(StudentGroup) ==> r.InGroup(TeacherGroup) && forall a :: a in res.value <==>
      (a in s.answers && s.answers[a].test in s.tests && s.tests[s.answers[a].test].material == materialId.n)
    ensures (r.SignedIn? && materialId.Given? && materialId.n >= 0 && materialId.n as nat in s.materials
             && !r.InGroup(StudentGroup) && !r.InGroup(TeacherGroup))
      ==> res == Fail(Denied, "Permission denied.")
    ensures (r.SignedIn? && materialId.Given? && materialId.n >= 0 && materialId.n as nat in s.materials
             && (r.InGroup(StudentGroup) || r.InGroup(TeacherGroup)))
      ==> res.Ok?
  {
    if !CheckAnswersAllowed(r) then Fail(Denied, "Authentication credentials were not provided.")
    else match materialId
      case Missing => Fail(BadRequest, "material_id is required.")
      case Malformed => Fail(NotFound, "No Material matches the given query.")
      case Given(n) =>
        if n < 0 || n as nat !in s.materials then Fail(NotFound, "No Material matches the given query.")
        else
          var tests := TestsOfMaterial(s, n as nat);
          if r.InGroup(StudentGroup) then
            Ok(set a | a in s.answers && s.answers[a].student == r.id && s.answers[a].test in tests)
          else if r.InGroup(TeacherGroup) then
            Ok(set a | a in s.answers && s.answers[a].test in tests)
          else Fail(Denied, "Permission denied.")
  }

  /** A student's view of a material's answers is the teacher's view of the
      same material narrowed to the student's own answers. */
  lemma StudentViewIsTeacherViewNarrowed(s: Store, student: Requester, teacher: Requester, m: nat)
    requires student.InGroup(StudentGroup)
    requires teacher.InGroup(TeacherGroup) && !teacher.InGroup(StudentGroup)
    requires m in s.materials
    ensures var mine := CheckAnswers(s, student, Given(m));
      var all := CheckAnswers(s, teacher, Given(m));
      && mine.Ok? && all.Ok?
      && mine.value == set a | a in all.value && a in s.answers && s.answers[a].student == student.id
  {
  }
}
